=== FILE: README.md ===
# sf-muni gateway core in Dafny

The gateway is an HTTP front for the NextBus public feed for the `sf-muni`
agency. This project models three parts of it and proves properties of each:

- **Not-in-service evaluator** (`NotInServiceHandler`). For a query time
  `hh:mm`, it fetches the schedule of every route and says which routes are
  not running. It uses these helpers:
  - `getWeekDay`, which gives today's service class;
  - `findFirst` and `findLast`, which give the first and the last scheduled
    stop time of a block; a stop shown as `"--"` is not scheduled;
  - the first-to-last window test, which may wrap past midnight.

  Modules:
  - `TimeOfDay` holds the part of Go's `time.Parse` this code relies on, for
    the layouts `15:05` and `15:05:00`. In these layouts `05` is the seconds
    field. A failed parse gives the zero time, and the error is discarded.
  - `Schedule` is the evaluator as a pure function. Its lemmas characterise
    which routes are reported.
  - `NotInServiceLoop` is the same handler written as its nested loops, and
    is proved equal to the function.
- **Read-through cache**. Every data handler first calls `getFromCache` with
  the request URL. On a miss it calls the upstream feed. On success it calls
  `writeToCache` with a 30-second expiry; on failure it answers 500.
  - `RedisStore` models the shared key-value store. It has one keyspace and a
    millisecond clock. Of the commands, it models GET, SET with expiry, INCR
    (canonical decimal counters with 64-bit overflow) and ZADD.
  - `Cache` holds the two cache functions and the handler skeleton.
- **Telemetry**, in module `Telemetry`:
  - the middleware adds one to the counter named after the matched route;
  - it records the request's whole-millisecond latency in the sorted set
    `slow-queries`;
  - the stats handler reports the counter of every registered route name.

The model has no clock, calendar, network or HTTP. Instead, these values are
parameters of the model:

- the weekday and the query text;
- the outcome of each upstream fetch, either the decoded schedule or a failure;
- the store's state and the current time in milliseconds;
- the measured handling time in nanoseconds;
- the routed handler's effect on the store;
- the route names a walk of the router visits (`Telemetry.RegisteredNames`
  lists them as `main.go` registers them).

Wherever the documented behaviour and the code differ, the model follows the
code. The seven places where the code evidently departs from its intent are
listed under Findings, each with a corrected definition next to the model of
the code as written. One further difference is not a defect: the latency
ledger keeps one score per request path, the latest one, rather than one entry
per request.

## Model

| member | source | states |
|---|---|---|
| TimeOfDay.ParseClock | routes.go:413-416 | A time that parses lies within one day, and its `05` field is below 60: the layouts read `hh:mm` as hours and seconds. |
| TimeOfDay.LayoutsAgree | routes.go:413-416 | For every input text `s`, the stop-time layout applied to `s + ":00"` gives the same instant as the query layout applied to `s`. A failure under one layout is a failure under the other. |
| TimeOfDay.ParseShort | routes.go:429 | The query layout yields, when it parses, a time of day below 24 hours whose `05` field is below 60, and accepts only texts of four or five characters. |
| TimeOfDay.ParseLong | routes.go:454-457 | The stop-time layout yields, when it parses, a time of day below 24 hours whose `05` field is below 60, and accepts only texts of seven or eight characters. |
| TimeOfDay.DigitChar | routes.go:413-416 | The digit written for a value below ten is a decimal digit that reads back as that value. |
| TimeOfDay.FieldRoundTrip | routes.go:413-416 | Two decimal digits read as a number and written back give the same two characters. |
| TimeOfDay.ParsedSpelling | routes.go:413-416 | A text that parses is exactly one of the spellings of its time: a one- or two-digit hour, `:`, two digits of the `05` field, then the layout's suffix. Texts such as `7:00` are accepted. |
| TimeOfDay.SpellingParses | routes.go:413-416 | Conversely, every such spelling parses to its time, so the two lemmas give the exact set of accepted texts. |
| TimeOfDay.ParseFormat | routes.go:429 | Every time of day the `hh:mm` form can express is read back unchanged, by the query layout and by the stop-time layout. |
| TimeOfDay.ZeroIsLatest | routes.go:454-457 | The zero time from a discarded parse error comes after every parsed time and before none. |
| TimeOfDay.BeforeIsStrictTotalOrder | routes.go:461-466 | `Before` is irreflexive, transitive and total on distinct instants, so the window test compares instants on one line. |
| Schedule.FindFirst | routes.go:528-538 | findFirst never returns the `"--"` placeholder. |
| Schedule.FindLast | routes.go:540-550 | findLast never returns the `"--"` placeholder. |
| Schedule.FindFirstSpec | routes.go:528-538 | When no stop is scheduled the result is `""`. Otherwise it is the time of the first scheduled stop, which may itself be empty text: no earlier stop is scheduled. |
| Schedule.FindLastSpec | routes.go:540-550 | When no stop is scheduled the result is `""`. Otherwise it is the time of the last scheduled stop, which may itself be empty text: no later stop is scheduled. |
| Schedule.SingleScheduledStop | routes.go:528-550 | With exactly one scheduled stop, findFirst and findLast both give its time. |
| Schedule.GetWeekDay | routes.go:515-526 | The switch's first guard holds for every weekday, so the service class is `"wkd"` on all seven days. |
| Schedule.InWindow | routes.go:461-469 | A time equal to either bound is never in the window. When both bounds are equal, every other time is in it. |
| Schedule.WindowIsArc | routes.go:461-469 | For parsed times, the two-branch window test holds exactly when going forward round the clock from the first stop time reaches the query time before the last stop time. |
| Schedule.OpenWindow | routes.go:461-464 | When first < last, a time is in the window iff it lies strictly between them. |
| Schedule.WrappedWindow | routes.go:465-469 | When last <= first, a time is in the window iff it is after first or before last, which wraps past midnight. |
| Schedule.DegenerateWindow | routes.go:465-469 | When first = last, every time other than that instant is in the window. |
| Schedule.UnparsableQuery | routes.go:461-469 | An unparsable query time (the zero time) is in a window iff the window is wrapped and its first stop time parsed. |
| Schedule.UnscheduledBlockIsActive | routes.go:453-469 | A block whose stops are all `"--"` has both bounds at the zero time, so it is active at every parsed query time. |
| Schedule.Offset | routes.go:461-469 | The forward distance round the clock between two times of day lies below one day and leads from the first time to the second. |
| Schedule.ExaminedAppend | routes.go:448-451 | The blocks examined over a concatenation of schedule lists are the examined blocks of each part, in order. |
| Schedule.ExaminedMembers | routes.go:448-451 | A block is examined iff it belongs to a schedule whose service class is today's. |
| Schedule.Sweep | routes.go:453-470 | Running over a list of blocks leaves the map unchanged when the list is empty. Otherwise the route's entry ends as the verdict of the last block alone. |
| Schedule.SweepAppend | routes.go:453-470 | Sweeping two block lists in turn is the same as sweeping their concatenation. |
| Schedule.VerdictKeysAreTags | routes.go:431-472 | The verdict map built over the route list has entries only for tags of that list. |
| Schedule.EntryNeedsExaminedBlock | routes.go:425-472 | A tag has an entry in the verdict map only if some block was examined among the schedules decoded so far. |
| Schedule.NoEntryForAbsentTag | routes.go:425-472 | A tag that is not in the route list never gets an entry. |
| Schedule.VerdictOfLastRoute | routes.go:431-472 | The last route gets an entry iff some block of all the schedules decoded so far was examined. That entry is the window test of the last such block. |
| Schedule.OtherRouteKeepsVerdict | routes.go:459-468 | Processing one route changes no other route's entry. |
| Schedule.VerdictAtLastOccurrence | routes.go:423-472 | A tag's final entry is fixed at its last position in the route list, by the last examined block accumulated up to there. |
| Schedule.ReportedIffFalseVerdict | routes.go:474-480 | A tag is reported iff its entry exists and is false. |
| Schedule.NotInService | routes.go:419-488 | The evaluator answers 500 iff some route's schedule fetch failed. |
| Schedule.ReportedAreTags | routes.go:474-480 | Only tags of the route list are ever reported. |
| Schedule.FailedFetchAnywhere | routes.go:434-439 | One failed schedule fetch anywhere in the route list makes the answer a 500, whatever the other routes, the weekday and the time hold. |
| Schedule.NotInServiceCharacterized | routes.go:419-480 | With all fetches successful, a listed tag is reported iff some block was examined up to its last position and the last such block is not active at the query time. |
| Schedule.AbsentTagNotReported | routes.go:474-480 | A tag absent from the route list is never reported. |
| NotInServiceLoop.TestBlock | routes.go:454-469 | One block iteration resets the route's entry, then sets it to the block's window verdict. No other entry changes. |
| NotInServiceLoop.Overwrite | routes.go:459-468 | A second write to a route's entry overrides the first, which is why only the last block of a run decides. |
| NotInServiceLoop.TestBlocks | routes.go:453-470 | The block loop leaves the map unchanged on an empty list. Otherwise the route's entry is the verdict of the last block. |
| NotInServiceLoop.TestSchedules | routes.go:448-471 | The schedule loop equals one sweep over the blocks of every decoded schedule whose class is today's. |
| NotInServiceLoop.RouteStep | routes.go:431-472 | One turn of the route loop extends the shared schedule by the route's decoded schedules and applies one more sweep to the verdict map. |
| NotInServiceLoop.NotInServiceHandler | routes.go:419-488 | The loop answers 500 iff a fetch failed. Otherwise its report equals the evaluator's. |
| RedisStore.Digits | routes.go:589 | A counter is rendered as non-empty decimal digits, with a leading zero only for zero. |
| RedisStore.ParseDigits | routes.go:589 | Every counter value up to the 64-bit limit, once rendered, parses back to itself. |
| RedisStore.DigitsOfParse | routes.go:589 | Every text accepted as a counter is the canonical rendering of its value. |
| Cache.GetFromCache | redis.go:23-33 | A lookup returns the body with no error iff the store is reachable and holds a live string under exactly the request key. Every failure, the missing key included, returns an empty body with the error. |
| Cache.WriteToCache | redis.go:35-40 | A write stores the body under the request key, with an expiry 30 seconds on. An unreachable store is left unchanged and the caller sees no error. |
| Cache.ReadThrough | routes.go:30-47 | The upstream is called iff the cache lookup fails at the request time. A hit serves the cached body and writes nothing. An upstream failure answers 500 and writes nothing. An upstream body is served and written to the cache at the later time the fetch returned, expiring 30 s after that write. |
| Cache.FreshWithinTtl | redis.go:11-36 | A body written at time `now` is read back unchanged at any time up to `now` + 30 s. |
| Cache.ExpiredAfterTtl | redis.go:11-36 | After `now` + 30 s the written body is a miss. |
| Cache.WriteKeepsOtherKeys | redis.go:35-40 | A cache write changes what no other key reads. |
| Cache.RepeatServedFromCache | routes.go:33-46 | After a miss the upstream answered, the same request made within 30 s of the cache write is served the same body from the cache, without an upstream call. |
| Cache.RefetchAfterTtl | routes.go:33-46 | Once more than 30 s have passed since the cache write, the same request calls the upstream again. |
| Cache.FailureNotCached | routes.go:39-43 | An upstream failure is not cached: the next request for the key, at any later time, calls the upstream again. |
| Telemetry.ElapsedMillis | routes.go:600-602 | The recorded latency is the whole number of milliseconds in the elapsed time, rounded down. |
| Telemetry.CountRequest | routes.go:588-591 | When the counter is readable and below the 64-bit limit, it goes up by exactly one. Otherwise the store is unchanged. No other key changes. |
| Telemetry.RecordLatency | routes.go:599-604 | When the ledger is readable, it maps the request path to the latest latency, replacing any earlier score. Otherwise the store is unchanged. No other key changes. |
| Telemetry.Middleware | routes.go:583-614 | An unmatched request has no effect on the store beyond the handler's own. |
| Telemetry.MiddlewareCountsHit | routes.go:588-604 | A matched request raises the route's reported hit count by exactly one, when the handler leaves that key alone, whatever the ledger key. When the ledger key is the route's own name, the ledger write fails on the counter and leaves it alone. |
| Telemetry.MiddlewareRecordsLatency | routes.go:595-604 | A matched request adds its path's whole-millisecond latency to the ledger, keeping every other path's score; this includes the route named like the ledger once the ledger exists, whose failed INCR changes nothing. |
| Telemetry.LedgerHidesItsRouteCount | routes.go:589-603 | Once the ledger exists, the `slow-queries` route's requests are never counted, and the report shows `0` for that route. |
| Telemetry.RouteCountHidesLedger | routes.go:589-603 | If a `slow-queries` request is the first to create that key, the key becomes a counter and the ledger cannot be written. |
| Telemetry.StoredText | routes.go:340 | The text read for a name is the live string stored under exactly that name when the store is reachable. It is empty otherwise: unreachable store, missing or expired key, or a key holding the ledger. |
| Telemetry.Hits | routes.go:339-343 | The shown hit count is never empty. It equals the stored text whenever that text is non-empty, and is `0` when the stored text is empty. |
| Telemetry.HitsShowCount | routes.go:339-343 | For a readable counter, the shown hit count parses back to the counter's value. A route never counted shows `0`. |
| Telemetry.ReadThroughKeeps | routes.go:33-46 | A cache-or-fetch handler keyed by its URL leaves every other key alone, so it does not disturb a route counter or the ledger. |
| Telemetry.StatsHandler | routes.go:324-349 | The report lists every distinct non-empty registered name exactly once and no other name, each with its hit count. |
| Telemetry.ReportedAreRegistered | main.go:28-60 | Every name in the report's name set is one of the router's registered names. |
| Telemetry.RegisteredAreReported | main.go:28-60 | Every non-empty registered name is in the report's name set. |
| Telemetry.GatewayStats | routes.go:324-349 | For the gateway's own router, the report lists exactly the twelve distinct route names, each once, with its hit count. |
| Telemetry.ListEndpoints | routes.go:339-344 | Starting from `"0"` for every name, the loop lists each name of the map once, each with its hit count, in an unspecified order. |
| Findings.ServiceDay | routes.go:515-526 | Corrected service class: one of `"wkd"`, `"sat"` or `"sunday"`. |
| Findings.WeekdayClassAllWeek | routes.go:518-520 | As written, the days whose class is `"wkd"` are all seven, Saturday and Sunday included. |
| Findings.ServiceDayClasses | routes.go:515-526 | Corrected, Monday to Friday are exactly the `"wkd"` days; Saturday is `"sat"` and Sunday is `"sunday"`. |
| Findings.IntendedNotInService | routes.go:419-480 | The corrected evaluator answers 500 iff a fetch failed, as the handler does. |
| Findings.IntendedVerdict | routes.go:448-480 | Corrected, with distinct tags, a route is reported iff none of its own blocks for today's class has a window containing the query time. |
| Findings.IntendedAnyBlock | routes.go:453-470 | Corrected, one serving block anywhere among a route's blocks keeps it out of the report. |
| Findings.IntendedUnscheduledContributesNothing | routes.go:528-550 | Corrected, a block with no scheduled stop never serves. |
| Findings.IntendedSingleStopServesNothing | routes.go:465-469 | Corrected, a block with a single scheduled stop spans no time and never serves, where the code's window test makes it active all day but that instant. |
| Findings.EmptyFirstTimeServesNothing | routes.go:454-469 | Corrected, a block whose first stop time is empty text has no window and never serves; as written, its zero first bound makes it active exactly at the parsed times before 08:00. |
| Findings.IntendedNoBlocksReported | routes.go:474-480 | Corrected, a route with no block for today's class is reported. |
| Findings.IntendedOwnScheduleOnly | routes.go:441-451 | Corrected, a route's verdict depends only on its own schedule, not on the other routes' schedules. |
| Findings.OneRouteAsWritten | routes.go:453-480 | For a one-route list, the handler reports the route iff it has a block and its last block is inactive. |
| Findings.OneRouteIntended | routes.go:453-480 | For a one-route list on a weekday, the corrected evaluator reports it iff none of its blocks serves. |
| Findings.BlockServes | routes.go:454-469 | A two-stop block whose two times are scheduled, parse, and differ has a window, and it serves exactly inside that window. |
| Findings.HourBlock | routes.go:454-469 | A two-stop block at two different whole hours serves at a time iff that time lies in the window between the two hours. |
| Findings.HourBlockAt | routes.go:429-469 | At a whole-hour query, such a block is active, and serves, iff the query hour lies strictly between its two hours. |
| Findings.LastBlockWins | routes.go:459 | As written, for a route with blocks 08:00-10:00 and 11:00-12:00, the handler reports it as not in service at 09:00. |
| Findings.AnyBlockServes | routes.go:459 | Corrected, the same route is not reported at 09:00. |
| Findings.UnscheduledBlockServes | routes.go:454-457 | As written, a route whose only block has no scheduled stop is not reported at noon. |
| Findings.UnscheduledBlockCorrected | routes.go:454-457 | Corrected, that route is reported. |
| Findings.NoBlocksNeverReported | routes.go:474-480 | As written, a route with only a Saturday schedule is never reported, on any day at any time. |
| Findings.NoBlocksCorrected | routes.go:474-480 | Corrected, it is reported on every weekday. |
| Findings.TwoRoutesAsWritten | routes.go:441-451 | As written, the verdict on route B, which has no schedule, is the verdict of route A's block. |
| Findings.BorrowedBlock | routes.go:441 | As written, at 07:00 route B inherits A's 06:00-09:00 block and is not reported. |
| Findings.OwnScheduleCorrected | routes.go:441 | Corrected, route B is reported. |
| Findings.SaturdayUsesWeekdaySchedule | routes.go:518-520 | As written, on a Saturday a weekday-only route is judged by its weekday block and not reported at 09:00. |
| Findings.SaturdayCorrected | routes.go:518-520 | Corrected, on a Saturday the same route has no block and is reported. |
| Findings.SeparateLedgerKeyIsNoRoute | routes.go:600 | A ledger key of its own, `latency`, is not the name of any registered route. |
| Findings.SharedKeyHoldsOneOf | routes.go:589-600 | As written, once the shared `slow-queries` key exists it holds either the ledger or the route's counter, never both. |
| Findings.SeparateLedgerCountsEveryRoute | routes.go:589-600 | Corrected, with an existing ledger under that key, a matched request to any registered route, `slow-queries` included, raises its hit count by one and records its latency under its path. |

## Left out

- Fetching: the HTTP request to the feed, URL construction (`fetch`, `url.Values`) and reading the response body are not modelled. Each fetch is a parameter that carries either the decoded body or a failure.
- XML decoding and encoding: schedules are given already decoded, and the decoder's panic on malformed XML is not modelled. The response's XML rendering is not modelled either; the not-in-service answer is a set of tags, because Go's map iteration gives no order.
- `getRouteList`: its fetch error is ignored in the code and its decode error panics. The route list is given as a parameter.
- Logging and `log.Fatal`: nothing observable is modelled for them.
- Go's `time.Parse` beyond the two layouts in use, such as fractional seconds or other layout fields, is not modelled.
- `time.Now` and `time.Since` are replaced by parameters: the weekday, the millisecond store clock and the elapsed nanoseconds.
- Concurrency: requests are modelled one at a time, so neither races between handlers nor store atomicity are modelled.
- The data handlers other than `AgencyListHandler` repeat the same cache skeleton with other feed commands. `Cache.ReadThrough` models all of them at once.
- `SlowQueriesHandler` and the server wiring (`main`, `withRedis`, `withRouter`, `newRedisClient`) are not part of this model.
- Router matching and `router.Walk` are not modelled. The matched route name is a parameter, and so is the list of names a walk visits.
- RedisStore.ZAdd: the float64 score is modelled as a natural number of milliseconds.
- RedisStore.Incr: a counter holding a negative number is treated as not an integer. The gateway only ever increments from zero, so its counters are never negative.
- Telemetry.ElapsedMillis: the conversion to float64 is not modelled. It is exact below 2^53 milliseconds.
- Telemetry.Middleware: its own contract covers only the unmatched request. Its effect on a matched request is stated by `Telemetry.MiddlewareCountsHit` and `Telemetry.MiddlewareRecordsLatency`. The ledger key is a parameter so that the corrected key can be stated; the gateway passes `slow-queries`.
- Cache.ReadThrough: the request time and the write time are separate parameters, with the write no earlier than the request. How long the fetch takes is not modelled beyond that.

## Findings

| source | as written | input that shows it | evidently intended | confidence | as-written member | corrected member |
|---|---|---|---|---|---|---|
| routes.go:518-525 | `wd >= 0 \|\| wd <= 4` holds for every weekday, so the class is always `"wkd"`; the unreachable later arms would also give Friday (weekday 5) `"sat"` | Saturday (weekday 6), weekday-only route, 09:00 | Saturday selects `"sat"` and Sunday selects `"sunday"` | high; not executed | Findings.SaturdayUsesWeekdaySchedule | Findings.SaturdayCorrected |
| routes.go:459 | each block first resets the route to false, so only the last block examined decides | route with weekday blocks 08:00-10:00 and 11:00-12:00, query 09:00 | a route is in service when any of its blocks is active | high; not executed | Findings.LastBlockWins | Findings.AnyBlockServes |
| routes.go:423-441 | one `Schedule` value is decoded into for every route, so a route also sweeps the blocks of earlier routes | route A with block 06:00-09:00, then route B with no schedule, query 07:00 | a route is judged by its own schedule | medium; not executed | Findings.BorrowedBlock | Findings.OwnScheduleCorrected |
| routes.go:454-457 | for a block with no scheduled stop, both parse errors are discarded and the zero bounds make the block active | one block whose only stop is `"--"`, query 12:00 | a block without a scheduled stop does not count as service | medium; not executed | Findings.UnscheduledBlockServes | Findings.UnscheduledBlockCorrected |
| routes.go:474-480 | a route with no block for today's class never gets an entry, so it is never reported | route with only a Saturday schedule, any weekday, any time | a route with nothing running today is not in service | low; not executed | Findings.NoBlocksNeverReported | Findings.NoBlocksCorrected |
| routes.go:589-600 | the latency ledger is the sorted set `slow-queries`, which is also the name of a route, so that route's counter and the ledger share one key | the ledger exists, then a request to `/slow-queries` arrives | the ledger and the route counters live under different keys | medium; not executed | Telemetry.LedgerHidesItsRouteCount | Findings.SeparateLedgerCountsEveryRoute |
| routes.go:465-469 | a block whose first and last times coincide, such as one with a single scheduled stop, falls into the wrapped branch and is active at every other time of day | one block whose only scheduled stop is 08:00, query 12:00 | a block that spans no time does not count as service | low; not executed | Schedule.DegenerateWindow | Findings.IntendedSingleStopServesNothing |

=== FILE: cache.dfy ===
/** The read-through cache every data handler uses: `getFromCache` and
    `writeToCache` over the shared store, keyed by the request URL, and the
    hit / fetch / populate skeleton the handlers share. */
module Cache {
  import opened Wrappers
  import opened RedisStore

  const MillisPerSecond: nat := 1000

  /** The expiry of every cached response: 30 seconds. */
  const Ttl: nat := 30 * MillisPerSecond

  /** HTTP status of every upstream failure. */
  const StatusInternalServerError: nat := 500

  /** Go's `([]byte, error)` result of getFromCache; the body is nil (empty) when err is set. */
  datatype CacheRead = CacheRead(body: Bytes, err: Option<Error>)

  /** What the handler writes to the client. */
  datatype Response = Body(bytes: Bytes) | Status(code: nat)

  /** The response, the store afterwards, and whether the upstream was called. */
  datatype Served = Served(response: Response, store: Store, fetched: bool)

  /** The fresh response body held under `key`, read directly from the entries. */
  function Cached(entries: map<string, Entry>, key: string, now: nat): Option<Bytes> {
    if key in entries && entries[key].value.Str? && Live(entries[key], now)
    then Some(entries[key].value.bytes)
    else None
  }

  /** getFromCache: the stored body and no error exactly when the lookup
      succeeds; every failure, the missing-key reply included, comes back as
      a nil body with the error. */
  function GetFromCache(s: Store, req: string, now: nat): (r: CacheRead)
    ensures r.err.None? <==> s.reachable && Cached(s.entries, req, now).Some?
    ensures r.err.None? ==> r.body == Cached(s.entries, req, now).value
    ensures r.err.Some? ==> r.body == []
    ensures !s.reachable ==> r.err == Some(Unreachable)
    ensures s.reachable && req !in s.entries ==> r.err == Some(NilReply)
  {
    match Get(s, req, now)
    case Ok(body) => CacheRead(body, None)
    case Err(e) => CacheRead([], Some(e))
  }

  /** writeToCache: stores the body under exactly the request string with
      the 30-second expiry; a store failure is only logged, so the caller
      sees nothing and the store is unchanged. */
  function WriteToCache(s: Store, req: string, body: Bytes, now: nat): (r: Store)
    ensures r.reachable == s.reachable
    ensures s.reachable ==> r.entries == s.entries[req := Entry(Str(body), Some(now + Ttl))]
    ensures !s.reachable ==> r == s
  {
    Set(s, req, body, Ttl, now).store
  }

  /** The cache-or-fetch skeleton of a data handler, keyed by the request
      URL. The lookup happens at `now`; the write happens at `writeAt`, once
      the upstream call has returned. */
  function ReadThrough(s: Store, req: string, upstream: Fetch<Bytes>, now: nat, writeAt: nat): (r: Served)
    requires now <= writeAt
    ensures !r.fetched <==> s.reachable && Cached(s.entries, req, now).Some?
    ensures !r.fetched ==> r.response == Body(Cached(s.entries, req, now).value) && r.store == s
    ensures r.fetched && upstream.FetchFailed? ==> r.response == Status(StatusInternalServerError) && r.store == s
    ensures r.fetched && upstream.Fetched? ==>
              r.response == Body(upstream.value) && r.store == WriteToCache(s, req, upstream.value, writeAt)
  {
    var cached := GetFromCache(s, req, now);
    if cached.err.None? then Served(Body(cached.body), s, false)
    else
      match upstream
      case FetchFailed => Served(Status(StatusInternalServerError), s, true)
      case Fetched(body) => Served(Body(body), WriteToCache(s, req, body, writeAt), true)
  }

  /** A lookup of the same key within 30 seconds of a successful write yields the body. */
  lemma FreshWithinTtl(s: Store, req: string, body: Bytes, now: nat, later: nat)
    requires s.reachable
    requires now <= later <= now + Ttl
    ensures GetFromCache(WriteToCache(s, req, body, now), req, later) == CacheRead(body, None)
  {
  }

  /** A later lookup is a miss. */
  lemma ExpiredAfterTtl(s: Store, req: string, body: Bytes, now: nat, later: nat)
    requires now + Ttl < later
    ensures GetFromCache(WriteToCache(s, req, body, now), req, later).err.Some?
  {
  }

  /** A write touches no other key. */
  lemma WriteKeepsOtherKeys(s: Store, req: string, body: Bytes, now: nat, key: string, later: nat)
    requires key != req
    ensures GetFromCache(WriteToCache(s, req, body, now), key, later) == GetFromCache(s, key, later)
  {
  }

  /** After a miss that the upstream answered, the same request from the
      write until 30 seconds after it gets the same body from the cache,
      without calling the upstream. */
  lemma RepeatServedFromCache(s: Store, req: string, body: Bytes, now: nat, writeAt: nat,
                              next: Fetch<Bytes>, later: nat, laterWrite: nat)
    requires s.reachable
    requires now <= writeAt && ReadThrough(s, req, Fetched(body), now, writeAt).fetched
    requires writeAt <= later <= writeAt + Ttl && later <= laterWrite
    ensures var first := ReadThrough(s, req, Fetched(body), now, writeAt);
            ReadThrough(first.store, req, next, later, laterWrite) == Served(first.response, first.store, false)
  {
  }

  /** Once the entry has expired, 30 seconds after the write, the upstream
      is called again. */
  lemma RefetchAfterTtl(s: Store, req: string, body: Bytes, now: nat, writeAt: nat,
                        next: Fetch<Bytes>, later: nat, laterWrite: nat)
    requires now <= writeAt && ReadThrough(s, req, Fetched(body), now, writeAt).fetched
    requires writeAt + Ttl < later <= laterWrite
    ensures ReadThrough(ReadThrough(s, req, Fetched(body), now, writeAt).store, req, next, later, laterWrite).fetched
  {
  }

  /** No negative caching: after an upstream failure the next request for the
      key calls the upstream again. */
  lemma {:induction false} FailureNotCached(s: Store, req: string, now: nat, writeAt: nat,
                                            next: Fetch<Bytes>, later: nat, laterWrite: nat)
    requires now <= writeAt && ReadThrough(s, req, FetchFailed, now, writeAt).fetched
    requires now <= later <= laterWrite
    ensures ReadThrough(ReadThrough(s, req, FetchFailed, now, writeAt).store, req, next, later, laterWrite).fetched
  {
    assert ReadThrough(s, req, FetchFailed, now, writeAt).store == s;
    if s.reachable && req in s.entries && s.entries[req].value.Str? {
      assert !Live(s.entries[req], now);
    }
  }
}

=== FILE: findings.dfy ===
/** Where the not-in-service handler departs from the behaviour its design
    describes. Each departure is shown on a concrete input against the
    as-written model (modules Schedule and NotInServiceLoop), next to a
    corrected evaluator whose intended properties are proved:
      - today's service class is Saturday's or Sunday's on those days;
      - a route is in service when ANY of its blocks is active;
      - a route is judged by its OWN schedule only;
      - a block whose first or last time is missing or unreadable has no
        window and is never active, and neither has one spanning no time;
      - a route without an active block is reported, also when it has no block;
      - the latency ledger lives under a key that no route counter uses. */
module Findings {
  import opened Wrappers
  import opened TimeOfDay
  import opened Schedule
  import RedisStore
  import Telemetry

  const Sunday: Weekday := 0
  const Monday: Weekday := 1
  const Saturday: Weekday := 6

  /** The service class of a Go weekday as designed: Saturday and Sunday
      have their own classes, the five other days share "wkd". */
  function ServiceDay(wd: Weekday): (today: string)
    ensures today in {"wkd", "sat", "sunday"}
  {
    if wd == Saturday then "sat"
    else if wd == Sunday then "sunday"
    else "wkd"
  }

  /** As written, all seven days get the weekday class, Saturday included. */
  lemma WeekdayClassAllWeek()
    ensures GetWeekDay(Saturday) == "wkd" && GetWeekDay(Sunday) == "wkd"
    ensures (set d: Weekday | GetWeekDay(d) == "wkd") == {0, 1, 2, 3, 4, 5, 6}
  {
  }

  /** Corrected, exactly Monday to Friday share the weekday class, and each
      weekend day gets its own. */
  lemma ServiceDayClasses()
    ensures (set d: Weekday | ServiceDay(d) == "wkd") == {1, 2, 3, 4, 5}
    ensures (set d: Weekday | ServiceDay(d) == "sat") == {Saturday}
    ensures (set d: Weekday | ServiceDay(d) == "sunday") == {Sunday}
  {
  }

  /** A block has a service window only when its first and last scheduled
      times both parse; an unscheduled or unreadable bound spans nothing. */
  predicate HasWindow(b: Tr) {
    ParseLong(FindFirst(b.stops)).Clock? && ParseLong(FindLast(b.stops)).Clock?
  }

  /** As designed, a block serves at `t` when it has a window that contains
      `t`; a block whose first and last times coincide spans no time. */
  predicate ServesAt(b: Tr, t: Instant) {
    && HasWindow(b)
    && ParseLong(FindFirst(b.stops)) != ParseLong(FindLast(b.stops))
    && BlockActive(b, t)
  }

  /** The blocks of one route's own schedules for the given service class. */
  function OwnBlocks(f: RouteFetch, today: string): seq<Tr> {
    Examined(Decoded(f), today)
  }

  predicate InService(blocks: seq<Tr>, t: Instant) {
    exists b | b in blocks :: ServesAt(b, t)
  }

  /** The corrected evaluator: a 500 when a schedule fetch failed; otherwise
      every route whose own blocks for today's class hold none serving at
      the query time. */
  function IntendedNotInService(fetches: seq<RouteFetch>, weekday: Weekday, time: string): (r: Outcome)
    ensures r.ServerError? <==> exists i | 0 <= i < |fetches| :: fetches[i].schedule.FetchFailed?
  {
    if !AllFetched(fetches) then ServerError
    else
      var today := ServiceDay(weekday);
      var t := ParseShort(time);
      Report(set i | 0 <= i < |fetches| && !InService(OwnBlocks(fetches[i], today), t) :: fetches[i].tag)
  }

  predicate UniqueTags(fetches: seq<RouteFetch>) {
    forall i, j | 0 <= i < j < |fetches| :: fetches[i].tag != fetches[j].tag
  }

  /** The intended verdict: with distinct route tags, a route is reported iff
      none of its own blocks for today's class serves at the query time. */
  lemma IntendedVerdict(fetches: seq<RouteFetch>, weekday: Weekday, time: string, i: int)
    requires AllFetched(fetches) && UniqueTags(fetches)
    requires 0 <= i < |fetches|
    ensures fetches[i].tag in IntendedNotInService(fetches, weekday, time).notInService <==>
              forall b | b in OwnBlocks(fetches[i], ServiceDay(weekday)) :: !ServesAt(b, ParseShort(time))
  {
    var today := ServiceDay(weekday);
    var t := ParseShort(time);
    var r := IntendedNotInService(fetches, weekday, time).notInService;
    if fetches[i].tag in r {
      var j :| 0 <= j < |fetches| && !InService(OwnBlocks(fetches[j], today), t) && fetches[j].tag == fetches[i].tag;
      assert j == i;
    }
  }

  /** Adding a block that serves at the query time takes the route out of
      the report, wherever the block is placed among the route's blocks. */
  lemma IntendedAnyBlock(fetches: seq<RouteFetch>, weekday: Weekday, time: string, i: int)
    requires AllFetched(fetches) && UniqueTags(fetches)
    requires 0 <= i < |fetches|
    requires exists b | b in OwnBlocks(fetches[i], ServiceDay(weekday)) :: ServesAt(b, ParseShort(time))
    ensures fetches[i].tag !in IntendedNotInService(fetches, weekday, time).notInService
  {
    IntendedVerdict(fetches, weekday, time, i);
  }

  /** A block whose stops are all "--" never serves. */
  lemma IntendedUnscheduledContributesNothing(b: Tr, t: Instant)
    requires NoneScheduled(b.stops)
    ensures !ServesAt(b, t)
  {
    FindFirstSpec(b.stops);
    assert ParseLong("").Zero?;
  }

  /** A block with a single scheduled stop never serves, while as written it
      is active at every other time of day (Schedule.DegenerateWindow). */
  lemma IntendedSingleStopServesNothing(b: Tr, k: int, t: Instant)
    requires 0 <= k < |b.stops| && Scheduled(b.stops[k])
    requires forall j | 0 <= j < |b.stops| && j != k :: !Scheduled(b.stops[j])
    ensures !ServesAt(b, t)
  {
    SingleScheduledStop(b.stops, k);
  }

  /** A block whose first stop time is empty text has no window, though as
      written its zero first bound makes it active from midnight to 08:00. */
  lemma EmptyFirstTimeServesNothing(t: Instant)
    ensures !ServesAt(Block("", "08:00:00"), t)
    ensures BlockActive(Block("", "08:00:00"), t) <==> t.Clock? && t.seconds < 8 * SecondsPerHour
  {
    var b := Block("", "08:00:00");
    assert b.stops[0].timeValue == "";
    assert FindFirst(b.stops) == "";
    assert FindLast(b.stops) == "08:00:00";
    assert Spells("08:00:00", 8 * SecondsPerHour, ":00");
    SpellingParses("08:00:00", 8 * SecondsPerHour, ":00");
    assert ParseLong("").Zero?;
  }

  /** A route without blocks for today's class is reported. */
  lemma IntendedNoBlocksReported(fetches: seq<RouteFetch>, weekday: Weekday, time: string, i: int)
    requires AllFetched(fetches) && UniqueTags(fetches)
    requires 0 <= i < |fetches|
    requires OwnBlocks(fetches[i], ServiceDay(weekday)) == []
    ensures fetches[i].tag in IntendedNotInService(fetches, weekday, time).notInService
  {
    IntendedVerdict(fetches, weekday, time, i);
  }

  /** A route's verdict does not depend on the other routes' schedules. */
  lemma IntendedOwnScheduleOnly(fetches: seq<RouteFetch>, other: seq<RouteFetch>, weekday: Weekday, time: string, i: int)
    requires AllFetched(fetches) && UniqueTags(fetches)
    requires AllFetched(other) && UniqueTags(other)
    requires 0 <= i < |fetches| && 0 <= i < |other| && other[i] == fetches[i]
    ensures fetches[i].tag in IntendedNotInService(fetches, weekday, time).notInService <==>
              fetches[i].tag in IntendedNotInService(other, weekday, time).notInService
  {
    IntendedVerdict(fetches, weekday, time, i);
    IntendedVerdict(other, weekday, time, i);
  }

  // Concrete inputs for the counterexamples.

  /** A block with two stops, served at the given stop times. */
  function Block(first: string, last: string): Tr {
    Tr("b", [Stop("a", first), Stop("z", last)])
  }

  /** One route "X" with a single weekday schedule holding `trs`. */
  function OneRoute(trs: seq<Tr>): seq<RouteFetch> {
    [RouteFetch("X", Fetched([RouteSchedule(trs, "X", "wkd")]))]
  }

  lemma {:induction false} OneRouteBlocks(trs: seq<Tr>)
    ensures Examined(Accumulated(OneRoute(trs)[..1]), "wkd") == trs
    ensures OwnBlocks(OneRoute(trs)[0], "wkd") == trs
  {
    var f := OneRoute(trs);
    assert f[..1] == f;
    assert f[..0] == [];
    var scheds := Decoded(f[0]);
    assert scheds[..0] == [];
    assert Accumulated(f) == scheds;
  }

  /** For the one-route list, the handler reports "X" iff its last block is inactive. */
  lemma OneRouteAsWritten(trs: seq<Tr>, weekday: Weekday, time: string)
    ensures "X" in NotInService(OneRoute(trs), weekday, time).notInService <==>
              trs != [] && !BlockActive(trs[|trs| - 1], ParseShort(time))
  {
    OneRouteBlocks(trs);
    assert LastOccurrence(OneRoute(trs), "X", 0);
    NotInServiceCharacterized(OneRoute(trs), weekday, time, "X", 0);
  }

  /** For the one-route list on a weekday, the corrected evaluator reports
      "X" iff none of its blocks serves. */
  lemma OneRouteIntended(trs: seq<Tr>, weekday: Weekday, time: string)
    requires ServiceDay(weekday) == "wkd"
    ensures "X" in IntendedNotInService(OneRoute(trs), weekday, time).notInService <==>
              forall b | b in trs :: !ServesAt(b, ParseShort(time))
  {
    OneRouteBlocks(trs);
    IntendedVerdict(OneRoute(trs), weekday, time, 0);
  }

  /** The query times used below. */
  lemma QueryTimes()
    ensures ParseShort("07:00") == Clock(7 * SecondsPerHour)
    ensures ParseShort("09:00") == Clock(9 * SecondsPerHour)
    ensures ParseShort("12:00") == Clock(12 * SecondsPerHour)
  {
  }

  /** A block serves strictly between its first and last stop times. */
  lemma {:induction false} BlockServes(first: string, last: string, t: Instant)
    requires first != Unscheduled && last != Unscheduled
    requires ParseLong(first).Clock? && ParseLong(last).Clock? && ParseLong(first) != ParseLong(last)
    ensures HasWindow(Block(first, last))
    ensures ServesAt(Block(first, last), t) <==> InWindow(ParseLong(first), ParseLong(last), t)
  {
    var b := Block(first, last);
    assert Scheduled(b.stops[0]) && Scheduled(b.stops[1]);
    assert FindFirst(b.stops) == first;
    assert FindLast(b.stops) == last;
  }

  /** A block between two whole-hour stop times serves exactly inside the
      window those hours span. */
  lemma {:induction false} HourBlock(first: string, f: nat, last: string, l: nat, t: Instant)
    requires f < 24 && Spells(first, f * SecondsPerHour, ":00")
    requires l < 24 && Spells(last, l * SecondsPerHour, ":00")
    requires f != l
    ensures ServesAt(Block(first, last), t) <==> InWindow(Clock(f * SecondsPerHour), Clock(l * SecondsPerHour), t)
    ensures BlockActive(Block(first, last), t) <==> InWindow(Clock(f * SecondsPerHour), Clock(l * SecondsPerHour), t)
  {
    SpellingParses(first, f * SecondsPerHour, ":00");
    SpellingParses(last, l * SecondsPerHour, ":00");
    assert |first| > 2 && |last| > 2;
    BlockServes(first, last, t);
  }

  /** A whole-hour block at a whole-hour query time is active, and serves,
      exactly when the query hour lies strictly between its two hours. */
  lemma {:induction false} HourBlockAt(first: string, f: nat, last: string, l: nat, time: string, h: nat)
    requires f < l < 24 && h < 24
    requires Spells(first, f * SecondsPerHour, ":00") && Spells(last, l * SecondsPerHour, ":00")
    requires Spells(time, h * SecondsPerHour, "")
    ensures BlockActive(Block(first, last), ParseShort(time)) <==> f < h < l
    ensures ServesAt(Block(first, last), ParseShort(time)) <==> f < h < l
  {
    SpellingParses(time, h * SecondsPerHour, "");
    HourBlock(first, f, last, l, Clock(h * SecondsPerHour));
    assert InWindow(Clock(f * SecondsPerHour), Clock(l * SecondsPerHour), Clock(h * SecondsPerHour)) <==> f < h < l;
  }

  /** Route "X" with the weekday blocks 08:00-10:00 and 11:00-12:00. */
  function TwoBlocks(): seq<RouteFetch> {
    OneRoute([Block("08:00:00", "10:00:00"), Block("11:00:00", "12:00:00")])
  }

  /** Last block wins: at 09:00 on a Monday route "X" of TwoBlocks is
      reported as not in service, because its later block is not active. */
  lemma LastBlockWins()
    ensures "X" in NotInService(TwoBlocks(), Monday, "09:00").notInService
  {
    HourBlockAt("11:00:00", 11, "12:00:00", 12, "09:00", 9);
    OneRouteAsWritten([Block("08:00:00", "10:00:00"), Block("11:00:00", "12:00:00")], Monday, "09:00");
  }

  /** Corrected, the earlier block keeps route "X" in service at 09:00. */
  lemma AnyBlockServes()
    ensures "X" !in IntendedNotInService(TwoBlocks(), Monday, "09:00").notInService
  {
    var early := Block("08:00:00", "10:00:00");
    HourBlockAt("08:00:00", 8, "10:00:00", 10, "09:00", 9);
    OneRouteIntended([early, Block("11:00:00", "12:00:00")], Monday, "09:00");
  }

  /** Route "X" whose one weekday block has no scheduled stop. */
  function UnscheduledRoute(): seq<RouteFetch> {
    OneRoute([Tr("b", [Stop("a", Unscheduled)])])
  }

  /** A block whose stops are all "--" counts as active: route "X" of
      UnscheduledRoute is not reported at noon. */
  lemma UnscheduledBlockServes()
    ensures "X" !in NotInService(UnscheduledRoute(), Monday, "12:00").notInService
  {
    var b := Tr("b", [Stop("a", Unscheduled)]);
    QueryTimes();
    UnscheduledBlockIsActive(b, 12 * SecondsPerHour);
    OneRouteAsWritten([b], Monday, "12:00");
  }

  /** Corrected, the block contributes no window and the route is reported. */
  lemma UnscheduledBlockCorrected()
    ensures "X" in IntendedNotInService(UnscheduledRoute(), Monday, "12:00").notInService
  {
    var b := Tr("b", [Stop("a", Unscheduled)]);
    IntendedUnscheduledContributesNothing(b, ParseShort("12:00"));
    OneRouteIntended([b], Monday, "12:00");
  }

  /** Route "X" whose only schedule is Saturday's. */
  function SaturdayOnly(): seq<RouteFetch> {
    [RouteFetch("X", Fetched([RouteSchedule([Block("08:00:00", "10:00:00")], "X", "sat")]))]
  }

  lemma {:induction false} SaturdayOnlyBlocks()
    ensures Examined(Accumulated(SaturdayOnly()[..1]), "wkd") == []
    ensures OwnBlocks(SaturdayOnly()[0], "wkd") == []
  {
    var fetches := SaturdayOnly();
    var rs := RouteSchedule([Block("08:00:00", "10:00:00")], "X", "sat");
    assert fetches[..1] == fetches;
    assert fetches[..0] == [];
    assert [rs][..0] == [];
    assert Accumulated(fetches) == [rs];
  }

  /** A route without weekday blocks gets no verdict and is never reported:
      route "X" of SaturdayOnly, on any day at any query time. */
  lemma NoBlocksNeverReported(weekday: Weekday, time: string)
    ensures "X" !in NotInService(SaturdayOnly(), weekday, time).notInService
  {
    SaturdayOnlyBlocks();
    assert LastOccurrence(SaturdayOnly(), "X", 0);
    NotInServiceCharacterized(SaturdayOnly(), weekday, time, "X", 0);
  }

  /** Corrected, a route without blocks for the day is reported on every weekday. */
  lemma NoBlocksCorrected(weekday: Weekday, time: string)
    requires ServiceDay(weekday) == "wkd"
    ensures "X" in IntendedNotInService(SaturdayOnly(), weekday, time).notInService
  {
    SaturdayOnlyBlocks();
    IntendedNoBlocksReported(SaturdayOnly(), weekday, time, 0);
  }

  /** Route "A" with one weekday block 06:00-09:00, then route "B" without schedules. */
  function TwoRoutes(): seq<RouteFetch> {
    [RouteFetch("A", Fetched([RouteSchedule([Block("06:00:00", "09:00:00")], "A", "wkd")])),
     RouteFetch("B", Fetched([]))]
  }

  lemma {:induction false} TwoRoutesBlocks()
    ensures Examined(Accumulated(TwoRoutes()[..2]), "wkd") == [Block("06:00:00", "09:00:00")]
    ensures OwnBlocks(TwoRoutes()[1], "wkd") == []
  {
    var fetches := TwoRoutes();
    var rs := RouteSchedule([Block("06:00:00", "09:00:00")], "A", "wkd");
    assert fetches[..2] == fetches;
    assert fetches[..1] == [fetches[0]];
    assert [rs][..0] == [];
    assert Accumulated([fetches[0]]) == [rs] by {
      assert [fetches[0]][..0] == [];
    }
    assert Accumulated(fetches) == [rs];
  }

  /** For TwoRoutes, the verdict on "B" is the test of A's block. */
  lemma TwoRoutesAsWritten(weekday: Weekday, time: string)
    ensures "B" in NotInService(TwoRoutes(), weekday, time).notInService <==>
              !BlockActive(Block("06:00:00", "09:00:00"), ParseShort(time))
  {
    TwoRoutesBlocks();
    assert LastOccurrence(TwoRoutes(), "B", 1);
    NotInServiceCharacterized(TwoRoutes(), weekday, time, "B", 1);
  }

  /** Schedules accumulate across routes: at 07:00 route "B" of TwoRoutes,
      which has no weekday block, inherits the verdict of A's block and is
      not reported. */
  lemma BorrowedBlock()
    ensures "B" !in NotInService(TwoRoutes(), Monday, "07:00").notInService
  {
    HourBlockAt("06:00:00", 6, "09:00:00", 9, "07:00", 7);
    TwoRoutesAsWritten(Monday, "07:00");
  }

  /** Corrected, route "B" is judged by its own (empty) schedule and reported. */
  lemma OwnScheduleCorrected()
    ensures "B" in IntendedNotInService(TwoRoutes(), Monday, "07:00").notInService
  {
    TwoRoutesBlocks();
    IntendedNoBlocksReported(TwoRoutes(), Monday, "07:00", 1);
  }

  /** Route "X" with only the weekday block 08:00-10:00. */
  function WeekdayOnly(): seq<RouteFetch> {
    OneRoute([Block("08:00:00", "10:00:00")])
  }

  /** Today's class is "wkd" on a Saturday: route "X" of WeekdayOnly is not
      reported at 09:00 on a Saturday, although it has no Saturday service. */
  lemma SaturdayUsesWeekdaySchedule()
    ensures "X" !in NotInService(WeekdayOnly(), Saturday, "09:00").notInService
  {
    HourBlockAt("08:00:00", 8, "10:00:00", 10, "09:00", 9);
    OneRouteAsWritten([Block("08:00:00", "10:00:00")], Saturday, "09:00");
  }

  /** Corrected, Saturday selects the Saturday schedules, of which there are none. */
  lemma SaturdayCorrected()
    ensures "X" in IntendedNotInService(WeekdayOnly(), Saturday, "09:00").notInService
  {
    var fetches := WeekdayOnly();
    var scheds := Decoded(fetches[0]);
    assert scheds[..0] == [];
    assert OwnBlocks(fetches[0], "sat") == [];
    IntendedNoBlocksReported(fetches, Saturday, "09:00", 0);
  }

  /** A ledger key that names no route. */
  const SeparateLedgerKey: string := "latency"

  lemma {:induction false} SeparateLedgerKeyIsNoRoute()
    ensures SeparateLedgerKey !in Telemetry.RegisteredNames
  {
  }

  /** As written, the ledger and the "slow-queries" counter share one key,
      and a present key holds either a sorted set or a string: once the key
      exists, the ledger and the counter cannot both be written. */
  lemma SharedKeyHoldsOneOf(s: RedisStore.Store, now: nat)
    requires RedisStore.Lookup(s.entries, Telemetry.LedgerKey, now).Some?
    ensures !(Telemetry.Ledger(s, Telemetry.LedgerKey, now).Some? && Telemetry.Count(s, Telemetry.LedgerKey, now).Some?)
  {
  }

  /** With the ledger under a key of its own that already holds scores, a
      matched request to any registered route, "slow-queries" included,
      raises that route's hit count by one and records its latency under
      its path. As written, the two cannot both hold for "slow-queries"
      (SharedKeyHoldsOneOf). */
  lemma SeparateLedgerCountsEveryRoute(s: RedisStore.Store, name: string, path: string, elapsedNs: nat, now: nat,
                                       serve: RedisStore.Store -> RedisStore.Store)
    requires s.reachable && name in Telemetry.RegisteredNames
    requires Telemetry.Count(s, name, now).Some? && Telemetry.Count(s, name, now).value < RedisStore.MaxInt64
    requires RedisStore.Lookup(s.entries, SeparateLedgerKey, now).Some?
    requires Telemetry.Ledger(s, SeparateLedgerKey, now).Some?
    requires Telemetry.Keeps(serve, name) && Telemetry.Keeps(serve, SeparateLedgerKey)
    ensures var after := Telemetry.Middleware(s, SeparateLedgerKey, Some(name), path, elapsedNs, now, serve);
            && RedisStore.ParseCounter(Telemetry.Hits(after, name, now)) == Some(Telemetry.Count(s, name, now).value + 1)
            && Telemetry.Ledger(after, SeparateLedgerKey, now)
               == Some(Telemetry.Ledger(s, SeparateLedgerKey, now).value[path := Telemetry.ElapsedMillis(elapsedNs)])
  {
    SeparateLedgerKeyIsNoRoute();
    Telemetry.MiddlewareCountsHit(s, SeparateLedgerKey, name, path, elapsedNs, now, serve);
    Telemetry.MiddlewareRecordsLatency(s, SeparateLedgerKey, name, path, elapsedNs, now, serve);
  }
}

=== FILE: not_in_service.dfy ===
/** NotInServiceHandler written the way the handler runs: an outer loop over
    the route list that appends each decoded schedule to the one shared
    `Schedule` value, a loop over every schedule decoded so far, and a loop
    over the blocks of each schedule whose service class is today's. The two
    inner loops are split out as methods of their own. */
module NotInServiceLoop {
  import opened Wrappers
  import opened TimeOfDay
  import opened Schedule

  /** One block: reset the route's verdict to false, then set it when the
      query time lies in the block's window. */
  method TestBlock(buses: map<string, bool>, tag: string, b: Tr, schedule: Instant)
    returns (result: map<string, bool>)
    ensures result == buses[tag := BlockActive(b, schedule)]
  {
    var first := ParseLong(FindFirst(b.stops));
    var last := ParseLong(FindLast(b.stops));
    result := buses[tag := false];
    if Before(first, last) {
      if After(schedule, first) && Before(schedule, last) {
        result := result[tag := true];
      }
    } else {
      if After(schedule, first) || Before(schedule, last) {
        result := result[tag := true];
      }
    }
  }

  /** A second write to the same key overrides the first. */
  lemma Overwrite(m: map<string, bool>, k: string, x: bool, y: bool)
    ensures m[k := x][k := y] == m[k := y]
  {
  }

  /** The block loop for one schedule: the last block decides. */
  method TestBlocks(buses: map<string, bool>, tag: string, trs: seq<Tr>, schedule: Instant)
    returns (result: map<string, bool>)
    ensures |trs| == 0 ==> result == buses
    ensures |trs| > 0 ==> result == buses[tag := BlockActive(trs[|trs| - 1], schedule)]
  {
    result := buses;
    var block := 0;
    while block < |trs|
      invariant 0 <= block <= |trs|
      invariant block == 0 ==> result == buses
      invariant block > 0 ==> result == buses[tag := BlockActive(trs[block - 1], schedule)]
    {
      result := TestBlock(result, tag, trs[block], schedule);
      if block > 0 {
        Overwrite(buses, tag, BlockActive(trs[block - 1], schedule), BlockActive(trs[block], schedule));
      }
      block := block + 1;
    }
  }

  /** The schedule loop: every schedule decoded so far, skipping those whose
      service class is not today's. */
  method TestSchedules(buses: map<string, bool>, tag: string, s: seq<RouteSchedule>, today: string, schedule: Instant)
    returns (result: map<string, bool>)
    ensures result == Sweep(buses, tag, Examined(s, today), ActiveAt(schedule))
  {
    result := buses;
    var route := 0;
    while route < |s|
      invariant 0 <= route <= |s|
      invariant result == Sweep(buses, tag, Examined(s[..route], today), ActiveAt(schedule))
    {
      assert s[..route + 1][..route] == s[..route];
      ghost var seen := Examined(s[..route], today);
      if today == s[route].serviceClass {
        assert Examined(s[..route + 1], today) == seen + s[route].trs;
        SweepAppend(buses, tag, seen, s[route].trs, ActiveAt(schedule));
        result := TestBlocks(result, tag, s[route].trs, schedule);
      } else {
        assert Examined(s[..route + 1], today) == seen;
      }
      route := route + 1;
    }
    assert s[..route] == s;
  }

  /** One turn of the outer loop on the ghost side: the accumulated
      schedule grows by the route's decoded schedules and the verdict map
      takes one more sweep. */
  lemma {:induction false} RouteStep(fetches: seq<RouteFetch>, i: int, today: string, active: Tr -> bool)
    requires 0 <= i < |fetches| && fetches[i].schedule.Fetched?
    ensures AllFetched(fetches[..i]) ==> AllFetched(fetches[..i + 1])
    ensures Accumulated(fetches[..i + 1]) == Accumulated(fetches[..i]) + fetches[i].schedule.value
    ensures Verdicts(fetches[..i + 1], today, active)
            == Sweep(Verdicts(fetches[..i], today, active), fetches[i].tag,
                     Examined(Accumulated(fetches[..i + 1]), today), active)
  {
    var next := fetches[..i + 1];
    assert next[..i] == fetches[..i] && next[i] == fetches[i];
  }

  method NotInServiceHandler(fetches: seq<RouteFetch>, weekday: Weekday, time: string) returns (answer: Outcome)
    ensures answer.ServerError? <==> exists i | 0 <= i < |fetches| :: fetches[i].schedule.FetchFailed?
    ensures answer == NotInService(fetches, weekday, time)
  {
    var today := GetWeekDay(weekday);
    var schedule := ParseShort(time);
    var s: seq<RouteSchedule> := [];
    var buses: map<string, bool> := map[];
    var i := 0;
    while i < |fetches|
      invariant 0 <= i <= |fetches|
      invariant AllFetched(fetches[..i])
      invariant s == Accumulated(fetches[..i])
      invariant buses == Verdicts(fetches[..i], today, ActiveAt(schedule))
    {
      if fetches[i].schedule.FetchFailed? {
        assert !AllFetched(fetches);
        return ServerError;
      }
      RouteStep(fetches, i, today, ActiveAt(schedule));
      s := s + fetches[i].schedule.value;
      buses := TestSchedules(buses, fetches[i].tag, s, today, schedule);
      i := i + 1;
    }
    assert fetches[..i] == fetches;
    answer := Report(set k | k in buses && !buses[k]);
  }
}

=== FILE: redis_store.dfy ===
/** The shared key-value store the gateway talks to, reduced to the commands
    it issues: GET, SET with an expiry, INCR and ZADD. There is one keyspace:
    cached responses, per-route counters and the latency ledger live side by
    side. Time is an explicit millisecond clock; an entry with an expiry is
    visible while the clock has not passed it. Whether the store can be
    reached is part of its state, so every command can fail. */
module RedisStore {
  import opened Wrappers

  type byte = b: int | 0 <= b < 256
  type Bytes = seq<byte>

  /** The largest value a counter can hold (a signed 64-bit integer). */
  const MaxInt64: nat := 0x7FFF_FFFF_FFFF_FFFF

  datatype Value = Str(bytes: Bytes) | SortedSet(scores: map<string, nat>)
  datatype Entry = Entry(value: Value, expiresAt: Option<nat>)
  datatype Store = Store(entries: map<string, Entry>, reachable: bool)

  /** Failures a command reports; `NilReply` is a GET on a missing key. */
  datatype Error = Unreachable | NilReply | WrongType | NotAnInteger | Overflow

  datatype Reply<+T> = Ok(value: T) | Err(error: Error)

  /** The store after a write command, and the failure it reported, if any. */
  datatype Update = Update(store: Store, failure: Option<Error>)

  predicate Live(e: Entry, now: nat) {
    e.expiresAt.None? || now <= e.expiresAt.value
  }

  /** The value visible under `key` at time `now`. */
  function Lookup(entries: map<string, Entry>, key: string, now: nat): Option<Value> {
    if key in entries && Live(entries[key], now) then Some(entries[key].value) else None
  }

  function Get(s: Store, key: string, now: nat): Reply<Bytes> {
    if !s.reachable then Err(Unreachable)
    else
      match Lookup(s.entries, key, now)
      case None => Err(NilReply)
      case Some(Str(b)) => Ok(b)
      case Some(SortedSet(_)) => Err(WrongType)
  }

  /** SET key value with an expiry `ttl` milliseconds from now; replaces any value. */
  function Set(s: Store, key: string, b: Bytes, ttl: nat, now: nat): Update {
    if !s.reachable then Update(s, Some(Unreachable))
    else Update(s.(entries := s.entries[key := Entry(Str(b), Some(now + ttl))]), None)
  }

  /** Decimal digits of a counter value, as the store renders it. */
  function Digits(n: nat): (r: Bytes)
    ensures |r| > 0
    ensures forall i | 0 <= i < |r| :: 48 <= r[i] <= 57
    ensures r[0] == 48 <==> n == 0
    decreases n
  {
    if n < 10 then [48 + n] else Digits(n / 10) + [48 + n % 10]
  }

  predicate AllDigits(b: Bytes) {
    forall i | 0 <= i < |b| :: 48 <= b[i] <= 57
  }

  function ValueOf(b: Bytes): nat
    requires AllDigits(b)
    decreases |b|
  {
    if |b| == 0 then 0 else 10 * ValueOf(b[..|b| - 1]) + (b[|b| - 1] - 48)
  }

  /** A counter value: non-empty decimal digits without a leading zero, in range. */
  function ParseCounter(b: Bytes): Option<nat> {
    if |b| > 0 && AllDigits(b) && (|b| == 1 || b[0] != 48) && ValueOf(b) <= MaxInt64
    then Some(ValueOf(b))
    else None
  }

  lemma {:induction false} ValueOfDigits(n: nat)
    ensures ValueOf(Digits(n)) == n
    decreases n
  {
    if n >= 10 {
      var d := Digits(n / 10);
      assert (d + [48 + n % 10])[..|d|] == d;
      ValueOfDigits(n / 10);
    }
  }

  /** Printing then parsing a counter gives it back. */
  lemma ParseDigits(n: nat)
    requires n <= MaxInt64
    ensures ParseCounter(Digits(n)) == Some(n)
  {
    ValueOfDigits(n);
  }

  lemma {:induction false} LeadingDigitPositive(b: Bytes)
    requires |b| > 0 && AllDigits(b) && b[0] != 48
    ensures ValueOf(b) >= 1
    decreases |b|
  {
    if |b| > 1 {
      LeadingDigitPositive(b[..|b| - 1]);
    }
  }

  /** Parsing then printing a counter gives back the same bytes: the
      accepted form is the canonical one. */
  lemma {:induction false} DigitsOfParse(b: Bytes)
    requires ParseCounter(b).Some?
    ensures Digits(ParseCounter(b).value) == b
    decreases |b|
  {
    var v := ValueOf(b);
    if |b| > 1 {
      var p := b[..|b| - 1];
      LeadingDigitPositive(p);
      assert p[0] == b[0];
      assert ParseCounter(p) == Some(ValueOf(p));
      DigitsOfParse(p);
      assert v / 10 == ValueOf(p) && v % 10 == b[|b| - 1] - 48;
      assert b == p + [b[|b| - 1]];
    } else {
      assert b[..0] == [] && ValueOf(b[..0]) == 0;
      assert v == b[0] - 48;
      assert b == [b[0]];
    }
  }

  /** INCR: a missing key starts from zero; the expiry, if any, is kept. */
  function Incr(s: Store, key: string, now: nat): Update {
    if !s.reachable then Update(s, Some(Unreachable))
    else
      match Lookup(s.entries, key, now)
      case None => Update(s.(entries := s.entries[key := Entry(Str(Digits(1)), None)]), None)
      case Some(SortedSet(_)) => Update(s, Some(WrongType))
      case Some(Str(b)) =>
        match ParseCounter(b)
        case None => Update(s, Some(NotAnInteger))
        case Some(n) =>
          if n == MaxInt64 then Update(s, Some(Overflow))
          else Update(s.(entries := s.entries[key := Entry(Str(Digits(n + 1)), s.entries[key].expiresAt)]), None)
  }

  /** ZADD key score member: a missing key starts an empty sorted set; a
      member already present gets the new score. */
  function ZAdd(s: Store, key: string, member: string, score: nat, now: nat): Update {
    if !s.reachable then Update(s, Some(Unreachable))
    else
      match Lookup(s.entries, key, now)
      case None => Update(s.(entries := s.entries[key := Entry(SortedSet(map[member := score]), None)]), None)
      case Some(Str(_)) => Update(s, Some(WrongType))
      case Some(SortedSet(m)) =>
        Update(s.(entries := s.entries[key := Entry(SortedSet(m[member := score]), s.entries[key].expiresAt)]), None)
  }
}

=== FILE: schedule.dfy ===
/** The not-in-service schedule evaluator: decoded schedules, the sentinel
    scan over a block's stops, the service-window test, and the verdict map
    the handler builds while it walks the route list. */
module Schedule {
  import opened Wrappers
  import opened TimeOfDay

  /** One `<stop>` of a block: the stop tag and its time text, or "--". */
  datatype Stop = Stop(tag: string, timeValue: string)

  /** One `<tr>`: a scheduled block (a run of one vehicle). */
  datatype Tr = Tr(blockId: string, stops: seq<Stop>)

  /** One `<route>` of a schedule document, for one service class. */
  datatype RouteSchedule = RouteSchedule(trs: seq<Tr>, tag: string, serviceClass: string)

  /** The route list entry and the outcome of fetching and decoding its schedule. */
  datatype RouteFetch = RouteFetch(tag: string, schedule: Fetch<seq<RouteSchedule>>)

  /** What the handler answers: a 500 status, or the tags it reports. */
  datatype Outcome = ServerError | Report(notInService: set<string>)

  /** The time text of a stop the block does not serve. */
  const Unscheduled: string := "--"

  /** Go's `time.Weekday`: Sunday is 0, Saturday is 6. */
  type Weekday = d: int | 0 <= d <= 6

  predicate Scheduled(s: Stop) {
    s.timeValue != Unscheduled
  }

  ghost predicate NoneScheduled(stops: seq<Stop>) {
    forall j | 0 <= j < |stops| :: !Scheduled(stops[j])
  }

  /** `i` is the lowest index of a scheduled stop. */
  ghost predicate IsFirstScheduled(stops: seq<Stop>, i: int) {
    && 0 <= i < |stops|
    && Scheduled(stops[i])
    && forall j | 0 <= j < i :: !Scheduled(stops[j])
  }

  /** `i` is the highest index of a scheduled stop. */
  ghost predicate IsLastScheduled(stops: seq<Stop>, i: int) {
    && 0 <= i < |stops|
    && Scheduled(stops[i])
    && forall j | i < j < |stops| :: !Scheduled(stops[j])
  }

  /** findFirst: the time of the first scheduled stop, or "" when there is none. */
  function FindFirst(stops: seq<Stop>): (t: string)
    ensures t != Unscheduled
  {
    if |stops| == 0 then ""
    else if Scheduled(stops[0]) then stops[0].timeValue
    else FindFirst(stops[1..])
  }

  /** findLast: the time of the last scheduled stop, or "" when there is none. */
  function FindLast(stops: seq<Stop>): (t: string)
    ensures t != Unscheduled
  {
    if |stops| == 0 then ""
    else if Scheduled(stops[|stops| - 1]) then stops[|stops| - 1].timeValue
    else FindLast(stops[..|stops| - 1])
  }

  /** The forward scan finds the lowest-index scheduled stop, and "" when
      every stop is "--". */
  lemma {:induction false} FindFirstSpec(stops: seq<Stop>)
    ensures NoneScheduled(stops) ==> FindFirst(stops) == ""
    ensures !NoneScheduled(stops) ==>
              exists i | 0 <= i < |stops| :: IsFirstScheduled(stops, i) && FindFirst(stops) == stops[i].timeValue
    decreases |stops|
  {
    if |stops| == 0 {
    } else if Scheduled(stops[0]) {
      assert IsFirstScheduled(stops, 0);
    } else {
      var rest := stops[1..];
      FindFirstSpec(rest);
      if NoneScheduled(stops) {
        assert NoneScheduled(rest) by {
          forall j | 0 <= j < |rest| ensures !Scheduled(rest[j]) {
            assert rest[j] == stops[j + 1];
          }
        }
      } else {
        var k :| 0 <= k < |stops| && Scheduled(stops[k]);
        assert !NoneScheduled(rest) by {
          assert rest[k - 1] == stops[k];
        }
        var i :| 0 <= i < |rest| && IsFirstScheduled(rest, i) && FindFirst(rest) == rest[i].timeValue;
        assert IsFirstScheduled(stops, i + 1);
      }
    }
  }

  /** The backward scan finds the highest-index scheduled stop, and "" when
      every stop is "--". */
  lemma {:induction false} FindLastSpec(stops: seq<Stop>)
    ensures NoneScheduled(stops) ==> FindLast(stops) == ""
    ensures !NoneScheduled(stops) ==>
              exists i | 0 <= i < |stops| :: IsLastScheduled(stops, i) && FindLast(stops) == stops[i].timeValue
    decreases |stops|
  {
    if |stops| == 0 {
    } else if Scheduled(stops[|stops| - 1]) {
      assert IsLastScheduled(stops, |stops| - 1);
    } else {
      var front := stops[..|stops| - 1];
      FindLastSpec(front);
      if NoneScheduled(stops) {
        assert NoneScheduled(front) by {
          forall j | 0 <= j < |front| ensures !Scheduled(front[j]) {
            assert front[j] == stops[j];
          }
        }
      } else {
        var k :| 0 <= k < |stops| && Scheduled(stops[k]);
        assert !NoneScheduled(front) by {
          assert front[k] == stops[k];
        }
        var i :| 0 <= i < |front| && IsLastScheduled(front, i) && FindLast(front) == front[i].timeValue;
        assert IsLastScheduled(stops, i);
      }
    }
  }

  /** With exactly one scheduled stop, both scans return its time. */
  lemma SingleScheduledStop(stops: seq<Stop>, k: int)
    requires 0 <= k < |stops| && Scheduled(stops[k])
    requires forall j | 0 <= j < |stops| && j != k :: !Scheduled(stops[j])
    ensures FindFirst(stops) == FindLast(stops) == stops[k].timeValue
  {
    FindFirstSpec(stops);
    FindLastSpec(stops);
    assert !NoneScheduled(stops) by {
      assert Scheduled(stops[k]);
    }
    var i :| 0 <= i < |stops| && IsFirstScheduled(stops, i) && FindFirst(stops) == stops[i].timeValue;
    assert i == k by {
      assert IsFirstScheduled(stops, i);
    }
    var l :| 0 <= l < |stops| && IsLastScheduled(stops, l) && FindLast(stops) == stops[l].timeValue;
    assert l == k by {
      assert IsLastScheduled(stops, l);
    }
  }

  /** getWeekDay: the service class of today, from an injected weekday. The
      guard `wd >= 0 || wd <= 4` holds for every integer, so the answer is
      always the weekday class and the other two branches never run. */
  function GetWeekDay(wd: Weekday): (today: string)
    ensures today == "wkd"
  {
    if wd >= 0 || wd <= 4 then "wkd"
    else if wd == 5 then "sat"
    else "sunday"
  }

  /** The window test of one block: `first.Before(last)` picks the open
      interval (first, last); otherwise the window wraps past midnight.
      Neither bound is ever inside, and a window whose bounds coincide
      holds every other instant. */
  predicate InWindow(first: Instant, last: Instant, t: Instant): (r: bool)
    ensures r ==> t != first && t != last
    ensures first == last ==> (r <==> t != first)
  {
    if Before(first, last) then After(t, first) && Before(t, last)
    else After(t, first) || Before(t, last)
  }

  /** The block's window: its first and last scheduled times, parsed with the long layout. */
  predicate BlockActive(b: Tr, t: Instant) {
    InWindow(ParseLong(FindFirst(b.stops)), ParseLong(FindLast(b.stops)), t)
  }

  /** The window test at one query time, as a test on blocks. */
  function ActiveAt(t: Instant): Tr -> bool {
    b => BlockActive(b, t)
  }

  /** Seconds travelled forward around the clock face from `from` to `to`. */
  function Offset(from: nat, to: nat): (d: nat)
    requires from < SecondsPerDay && to < SecondsPerDay
    ensures d < SecondsPerDay
    ensures (from + d) % SecondsPerDay == to
  {
    if from <= to then to - from else to + SecondsPerDay - from
  }

  /** Independent reading of a service window on the clock face: `t` lies
      strictly inside the arc that starts at `first` and runs forward to
      `last`; when the two coincide the arc is the whole day. */
  predicate OnServiceArc(first: nat, last: nat, t: nat)
    requires first < SecondsPerDay && last < SecondsPerDay && t < SecondsPerDay
  {
    0 < Offset(first, t) < (if first == last then SecondsPerDay else Offset(first, last))
  }

  /** For parsed times the window test is exactly the clock-face arc. */
  lemma WindowIsArc(first: nat, last: nat, t: nat)
    requires first < SecondsPerDay && last < SecondsPerDay && t < SecondsPerDay
    ensures InWindow(Clock(first), Clock(last), Clock(t)) <==> OnServiceArc(first, last, t)
  {
  }

  /** When first is strictly before last both ends are excluded. */
  lemma OpenWindow(first: nat, last: nat, t: nat)
    requires first < last
    ensures InWindow(Clock(first), Clock(last), Clock(t)) <==> first < t < last
  {
  }

  /** Otherwise (wrap past midnight, or equal ends) the block is active after
      first or before last. */
  lemma WrappedWindow(first: nat, last: nat, t: nat)
    requires last <= first
    ensures InWindow(Clock(first), Clock(last), Clock(t)) <==> first < t || t < last
  {
  }

  /** With equal ends the block is active at every other time. */
  lemma DegenerateWindow(first: nat, t: nat)
    ensures InWindow(Clock(first), Clock(first), Clock(t)) <==> t != first
  {
  }

  /** A query time that fails to parse is the zero time: it is inside a
      window only when that window is not ordered and its first time parsed. */
  lemma UnparsableQuery(first: Instant, last: Instant)
    ensures InWindow(first, last, Zero) <==> !Before(first, last) && first.Clock?
  {
  }

  /** A block whose stops are all "--" scans to "" at both ends; both parse
      to the zero time, the window is not ordered, and every parsed query
      time is before the zero time: such a block counts as active. */
  lemma UnscheduledBlockIsActive(b: Tr, t: nat)
    requires NoneScheduled(b.stops)
    ensures BlockActive(b, Clock(t))
  {
    FindFirstSpec(b.stops);
    FindLastSpec(b.stops);
    assert ParseHour("").None?;
  }

  /** The blocks examined in a pass over `scheds`: those of every schedule
      whose service class is today's, in order. */
  function Examined(scheds: seq<RouteSchedule>, today: string): seq<Tr>
    decreases |scheds|
  {
    if |scheds| == 0 then []
    else
      var rs := scheds[|scheds| - 1];
      Examined(scheds[..|scheds| - 1], today) + (if rs.serviceClass == today then rs.trs else [])
  }

  lemma {:induction false} ExaminedAppend(a: seq<RouteSchedule>, b: seq<RouteSchedule>, today: string)
    ensures Examined(a + b, today) == Examined(a, today) + Examined(b, today)
    decreases |b|
  {
    if |b| == 0 {
      assert a + b == a;
    } else {
      var b' := b[..|b| - 1];
      assert (a + b)[..|a + b| - 1] == a + b';
      ExaminedAppend(a, b', today);
    }
  }

  /** Only blocks of schedules with today's service class are examined, and all of them are. */
  lemma {:induction false} ExaminedMembers(scheds: seq<RouteSchedule>, today: string, b: Tr)
    ensures b in Examined(scheds, today) <==>
              exists i | 0 <= i < |scheds| :: scheds[i].serviceClass == today && b in scheds[i].trs
    decreases |scheds|
  {
    if |scheds| > 0 {
      var front := scheds[..|scheds| - 1];
      ExaminedMembers(front, today, b);
      if b in Examined(front, today) {
        var i :| 0 <= i < |front| && front[i].serviceClass == today && b in front[i].trs;
        assert scheds[i] == front[i];
      }
      if exists i | 0 <= i < |scheds| :: scheds[i].serviceClass == today && b in scheds[i].trs {
        var i :| 0 <= i < |scheds| && scheds[i].serviceClass == today && b in scheds[i].trs;
        if i < |front| {
          assert front[i] == scheds[i];
        }
      }
    }
  }

  /** The inner block loop for one route: each examined block first resets
      the route's verdict to false, then sets it when the block is active.
      So the last block decides, and no block leaves the map alone. */
  function Sweep(buses: map<string, bool>, tag: string, blocks: seq<Tr>, active: Tr -> bool): (r: map<string, bool>)
    ensures |blocks| == 0 ==> r == buses
    ensures |blocks| > 0 ==> r == buses[tag := active(blocks[|blocks| - 1])]
    decreases |blocks|
  {
    if |blocks| == 0 then buses
    else
      var reset := buses[tag := false];
      var tested := if active(blocks[0]) then reset[tag := true] else reset;
      assert tested == buses[tag := active(blocks[0])];
      assert |blocks| > 1 ==> blocks[1..][|blocks[1..]| - 1] == blocks[|blocks| - 1];
      Sweep(tested, tag, blocks[1..], active)
  }

  /** Sweeping two runs of blocks one after the other is sweeping both. */
  lemma SweepAppend(buses: map<string, bool>, tag: string, xs: seq<Tr>, ys: seq<Tr>, active: Tr -> bool)
    ensures Sweep(buses, tag, xs + ys, active) == Sweep(Sweep(buses, tag, xs, active), tag, ys, active)
  {
    if |ys| == 0 {
      assert xs + ys == xs;
    } else {
      assert (xs + ys)[|xs + ys| - 1] == ys[|ys| - 1];
    }
  }

  /** The schedules decoded for one route, or none when its fetch failed. */
  function Decoded(f: RouteFetch): seq<RouteSchedule> {
    if f.schedule.Fetched? then f.schedule.value else []
  }

  /** The decoder appends into the one `Schedule` value declared before the
      loop, so after route i it holds everything decoded for routes 0..i. */
  function Accumulated(fetches: seq<RouteFetch>): seq<RouteSchedule>
    decreases |fetches|
  {
    if |fetches| == 0 then []
    else Accumulated(fetches[..|fetches| - 1]) + Decoded(fetches[|fetches| - 1])
  }

  /** The tags of the route list. */
  function Tags(fetches: seq<RouteFetch>): set<string> {
    set j | 0 <= j < |fetches| :: fetches[j].tag
  }

  /** The verdict map after the outer loop has handled every route of
      `fetches`. Which keys it has and what they map to is stated by
      VerdictKeysAreTags and VerdictAtLastOccurrence. */
  function Verdicts(fetches: seq<RouteFetch>, today: string, active: Tr -> bool): map<string, bool>
    decreases |fetches|
  {
    if |fetches| == 0 then map[]
    else
      Sweep(Verdicts(fetches[..|fetches| - 1], today, active), fetches[|fetches| - 1].tag,
            Examined(Accumulated(fetches), today), active)
  }

  predicate AllFetched(fetches: seq<RouteFetch>) {
    forall i | 0 <= i < |fetches| :: fetches[i].schedule.Fetched?
  }

  /** NotInServiceHandler as a function of the route list, the fetched
      schedules, the injected weekday and the `time` path parameter. */
  function NotInService(fetches: seq<RouteFetch>, weekday: Weekday, time: string): (r: Outcome)
    ensures r.ServerError? <==> exists i | 0 <= i < |fetches| :: fetches[i].schedule.FetchFailed?
  {
    if !AllFetched(fetches) then ServerError
    else
      var buses := Verdicts(fetches, GetWeekDay(weekday), ActiveAt(ParseShort(time)));
      Report(set tag | tag in buses && !buses[tag])
  }

  /** `k` is the last position of `tag` in the route list. */
  ghost predicate LastOccurrence(fetches: seq<RouteFetch>, tag: string, k: int) {
    && 0 <= k < |fetches|
    && fetches[k].tag == tag
    && forall j | k < j < |fetches| :: fetches[j].tag != tag
  }

  /** A route that has a verdict had some block examined, and the blocks
      examined so far stay in the accumulated schedule. */
  lemma {:induction false} EntryNeedsExaminedBlock(fetches: seq<RouteFetch>, today: string, active: Tr -> bool, tag: string)
    requires tag in Verdicts(fetches, today, active)
    ensures Examined(Accumulated(fetches), today) != []
    decreases |fetches|
  {
    var n := |fetches|;
    var front := fetches[..n - 1];
    ExaminedAppend(Accumulated(front), Decoded(fetches[n - 1]), today);
    if Examined(Accumulated(fetches), today) == [] {
      assert Examined(Accumulated(front), today) == [];
      assert tag in Verdicts(front, today, active);
      EntryNeedsExaminedBlock(front, today, active, tag);
    }
  }

  lemma {:induction false} NoEntryForAbsentTag(fetches: seq<RouteFetch>, today: string, active: Tr -> bool, tag: string)
    requires forall j | 0 <= j < |fetches| :: fetches[j].tag != tag
    ensures tag !in Verdicts(fetches, today, active)
    decreases |fetches|
  {
    if |fetches| > 0 {
      NoEntryForAbsentTag(fetches[..|fetches| - 1], today, active, tag);
    }
  }

  /** Only tags of the route list get a verdict entry. */
  lemma VerdictKeysAreTags(fetches: seq<RouteFetch>, today: string, active: Tr -> bool)
    ensures Verdicts(fetches, today, active).Keys <= Tags(fetches)
  {
    forall tag | tag in Verdicts(fetches, today, active)
      ensures tag in Tags(fetches)
    {
      if tag !in Tags(fetches) {
        NoEntryForAbsentTag(fetches, today, active, tag);
      }
    }
  }

  /** The sweep for the last route of the list decides that route's entry:
      it exists iff some block was examined, and is the test of the last one. */
  lemma {:induction false} VerdictOfLastRoute(fetches: seq<RouteFetch>, today: string, active: Tr -> bool)
    requires |fetches| > 0
    ensures var tag := fetches[|fetches| - 1].tag;
            var blocks := Examined(Accumulated(fetches), today);
            && (tag in Verdicts(fetches, today, active) <==> blocks != [])
            && (blocks != [] ==> Verdicts(fetches, today, active)[tag] == active(blocks[|blocks| - 1]))
  {
    var n := |fetches|;
    var front := fetches[..n - 1];
    var last := fetches[n - 1];
    var e := Examined(Accumulated(fetches), today);
    if e == [] {
      if last.tag in Verdicts(front, today, active) {
        EntryNeedsExaminedBlock(front, today, active, last.tag);
        ExaminedAppend(Accumulated(front), Decoded(last), today);
        assert false;
      }
    }
  }

  /** The sweep for a route with another tag leaves the entry of `tag` alone. */
  lemma {:induction false} OtherRouteKeepsVerdict(fetches: seq<RouteFetch>, today: string, active: Tr -> bool, tag: string)
    requires |fetches| > 0 && fetches[|fetches| - 1].tag != tag
    ensures var v := Verdicts(fetches, today, active);
            var vf := Verdicts(fetches[..|fetches| - 1], today, active);
            && (tag in v <==> tag in vf)
            && (tag in v ==> v[tag] == vf[tag])
  {
  }

  /** The verdict for a tag is decided at the tag's last position k: it has
      an entry iff some block was examined there, and then the entry is the
      window test of the last block examined at k, which is the last
      today-block among the schedules decoded for routes 0..k. */
  lemma {:induction false} VerdictAtLastOccurrence(fetches: seq<RouteFetch>, today: string, active: Tr -> bool, tag: string, k: int)
    requires LastOccurrence(fetches, tag, k)
    ensures DecidedAt(fetches, today, active, tag, k)
    decreases |fetches|
  {
    var front := fetches[..|fetches| - 1];
    if k == |fetches| - 1 {
      assert fetches[..k + 1] == fetches;
      VerdictOfLastRoute(fetches, today, active);
    } else {
      assert LastOccurrence(front, tag, k);
      VerdictAtLastOccurrence(front, today, active, tag, k);
      DecidedBeforeLastRoute(fetches, today, active, tag, k);
    }
  }

  /** What VerdictAtLastOccurrence states: the entry of `tag` exists iff
      some block was examined up to route k, and then is the window test
      of the last such block. */
  ghost predicate DecidedAt(fetches: seq<RouteFetch>, today: string, active: Tr -> bool, tag: string, k: int)
    requires 0 <= k < |fetches|
  {
    DecidedBy(Verdicts(fetches, today, active), tag, Examined(Accumulated(fetches[..k + 1]), today), active)
  }

  /** The entry of `tag` in `buses` exists iff `blocks` is not empty, and
      then is the test of its last block. */
  ghost predicate DecidedBy(buses: map<string, bool>, tag: string, blocks: seq<Tr>, active: Tr -> bool) {
    && (tag in buses <==> blocks != [])
    && (blocks != [] ==> buses[tag] == active(blocks[|blocks| - 1]))
  }

  /** A last route with another tag carries the decision over from the front of the list. */
  lemma {:induction false} DecidedBeforeLastRoute(fetches: seq<RouteFetch>, today: string, active: Tr -> bool, tag: string, k: int)
    requires 0 <= k < |fetches| - 1 && fetches[|fetches| - 1].tag != tag
    requires DecidedAt(fetches[..|fetches| - 1], today, active, tag, k)
    ensures DecidedAt(fetches, today, active, tag, k)
  {
    var front := fetches[..|fetches| - 1];
    assert front[..k + 1] == fetches[..k + 1];
    OtherRouteKeepsVerdict(fetches, today, active, tag);
    var blocks := Examined(Accumulated(fetches[..k + 1]), today);
    KeptEntryDecided(Verdicts(fetches, today, active), Verdicts(front, today, active), tag, blocks, active);
  }

  /** An entry that a later sweep leaves alone stays decided by the same blocks. */
  lemma KeptEntryDecided(v: map<string, bool>, vf: map<string, bool>, tag: string, blocks: seq<Tr>, active: Tr -> bool)
    requires (tag in v <==> tag in vf) && (tag in v ==> v[tag] == vf[tag])
    requires DecidedBy(vf, tag, blocks, active)
    ensures DecidedBy(v, tag, blocks, active)
  {
  }

  /** A tag is reported iff its verdict entry exists and is false. */
  lemma ReportedIffFalseVerdict(fetches: seq<RouteFetch>, weekday: Weekday, time: string, tag: string)
    requires AllFetched(fetches)
    ensures var buses := Verdicts(fetches, GetWeekDay(weekday), ActiveAt(ParseShort(time)));
            tag in NotInService(fetches, weekday, time).notInService <==> tag in buses && !buses[tag]
  {
  }

  /** Only tags of the route list are ever reported. */
  lemma ReportedAreTags(fetches: seq<RouteFetch>, weekday: Weekday, time: string)
    ensures NotInService(fetches, weekday, time).Report? ==>
              NotInService(fetches, weekday, time).notInService <= Tags(fetches)
  {
    VerdictKeysAreTags(fetches, GetWeekDay(weekday), ActiveAt(ParseShort(time)));
  }

  /** One failed schedule fetch, wherever it sits in the route list, turns
      the whole answer into a 500: the routes before and after it, the
      weekday and the query time do not matter. */
  lemma FailedFetchAnywhere(before: seq<RouteFetch>, failed: RouteFetch, after: seq<RouteFetch>,
                            weekday: Weekday, time: string)
    requires failed.schedule.FetchFailed?
    ensures NotInService(before + [failed] + after, weekday, time) == ServerError
  {
    assert (before + [failed] + after)[|before|] == failed;
  }

  /** Which tags are reported, stated without the verdict map: a tag of the
      route list is reported iff, at its last position k, some weekday block
      was examined and the last such block is not active at the query time. */
  lemma NotInServiceCharacterized(fetches: seq<RouteFetch>, weekday: Weekday, time: string, tag: string, k: int)
    requires AllFetched(fetches)
    requires LastOccurrence(fetches, tag, k)
    ensures var blocks := Examined(Accumulated(fetches[..k + 1]), "wkd");
            tag in NotInService(fetches, weekday, time).notInService <==>
              blocks != [] && !BlockActive(blocks[|blocks| - 1], ParseShort(time))
  {
    var active := ActiveAt(ParseShort(time));
    var blocks := Examined(Accumulated(fetches[..k + 1]), "wkd");
    VerdictAtLastOccurrence(fetches, "wkd", active, tag, k);
    ReportedIffFalseVerdict(fetches, weekday, time, tag);
    ReportedWhenDecided(Verdicts(fetches, "wkd", active), tag, blocks, active,
                        tag in NotInService(fetches, weekday, time).notInService);
    if blocks != [] {
      assert active(blocks[|blocks| - 1]) == BlockActive(blocks[|blocks| - 1], ParseShort(time));
    }
  }

  /** A reported tag is one whose decided entry is a failed window test. */
  lemma ReportedWhenDecided(buses: map<string, bool>, tag: string, blocks: seq<Tr>, active: Tr -> bool, reported: bool)
    requires DecidedBy(buses, tag, blocks, active)
    requires reported <==> tag in buses && !buses[tag]
    ensures reported <==> blocks != [] && !active(blocks[|blocks| - 1])
  {
  }

  /** A tag that is not in the route list is never reported. */
  lemma AbsentTagNotReported(fetches: seq<RouteFetch>, weekday: Weekday, time: string, tag: string)
    requires AllFetched(fetches)
    requires forall j | 0 <= j < |fetches| :: fetches[j].tag != tag
    ensures tag !in NotInService(fetches, weekday, time).notInService
  {
    NoEntryForAbsentTag(fetches, "wkd", ActiveAt(ParseShort(time)), tag);
  }
}

=== FILE: telemetry.dfy ===
/** Request telemetry kept in the shared store: the middleware's per-route
    hit counter (INCR under the route name) and latency ledger (a sorted set
    under "slow-queries" from request path to whole milliseconds), and the
    stats report that reads the counters back for every registered route. */
module Telemetry {
  import opened Wrappers
  import opened RedisStore
  import Cache

  /** The key the middleware writes the latency ledger under. It is also
      the name of a route. */
  const LedgerKey: string := "slow-queries"

  const NanosPerMilli: nat := 1_000_000

  /** The hit count reported for a route whose counter cannot be read. */
  const ZeroText: Bytes := [48]

  /** The route names a walk of the router visits, in registration order;
      "" is the unnamed "/v1" prefix route, and two names are registered twice. */
  const RegisteredNames: seq<string> := [
    "", "agency-list", "route-list", "route-config", "route-config",
    "predictions-id", "predictions-id", "predictions-tag", "predictions-multi",
    "schedule", "messages", "vehicle-locations", "not-in-service", "stats",
    "slow-queries"]

  /** One line of the stats report. */
  datatype Endpoint = Endpoint(name: string, hits: Bytes)

  /** `time.Since(start) / time.Millisecond`: whole milliseconds, rounded down. */
  function ElapsedMillis(ns: nat): (ms: nat)
    ensures ms * NanosPerMilli <= ns < (ms + 1) * NanosPerMilli
  {
    ns / NanosPerMilli
  }

  /** The counter under `name` as INCR reads it: zero when the key is
      absent, nothing when the key holds something other than a counter. */
  function Count(s: Store, name: string, now: nat): Option<nat> {
    match Lookup(s.entries, name, now)
    case None => Some(0)
    case Some(Str(b)) => ParseCounter(b)
    case Some(SortedSet(_)) => None
  }

  /** The latency ledger under `ledger` as ZADD sees it: empty when the key
      is absent, nothing when the key holds a string. */
  function Ledger(s: Store, ledger: string, now: nat): Option<map<string, nat>> {
    match Lookup(s.entries, ledger, now)
    case None => Some(map[])
    case Some(SortedSet(m)) => Some(m)
    case Some(Str(_)) => None
  }

  /** The handler's effect on the store leaves `key` and reachability alone. */
  ghost predicate Keeps(serve: Store -> Store, key: string) {
    forall st: Store :: serve(st).reachable == st.reachable &&
                        (key in serve(st).entries <==> key in st.entries) &&
                        (key in st.entries ==> serve(st).entries[key] == st.entries[key])
  }

  /** The counter increment for a matched route; a failure is only logged. */
  function CountRequest(s: Store, name: string, now: nat): (r: Store)
    ensures r.reachable == s.reachable
    ensures r.entries - {name} == s.entries - {name}
    ensures s.reachable && Count(s, name, now).Some? && Count(s, name, now).value < MaxInt64 ==>
              Count(r, name, now) == Some(Count(s, name, now).value + 1)
    ensures !(s.reachable && Count(s, name, now).Some? && Count(s, name, now).value < MaxInt64) ==> r == s
  {
    var u := Incr(s, name, now);
    if Count(s, name, now).Some? && Count(s, name, now).value < MaxInt64 then
      ParseDigits(Count(s, name, now).value + 1);
      u.store
    else
      u.store
  }

  /** The ledger write after a matched request; its error is discarded. */
  function RecordLatency(s: Store, ledger: string, path: string, ms: nat, now: nat): (r: Store)
    ensures r.reachable == s.reachable
    ensures r.entries - {ledger} == s.entries - {ledger}
    ensures s.reachable && Ledger(s, ledger, now).Some? ==>
              Ledger(r, ledger, now) == Some(Ledger(s, ledger, now).value[path := ms])
    ensures !(s.reachable && Ledger(s, ledger, now).Some?) ==> r == s
  {
    ZAdd(s, ledger, path, ms, now).store
  }

  /** Middleware: when the router matched a route named `route`, count the
      request, serve it, and record its latency under the request path in
      the ledger kept under `ledger` (LedgerKey in the gateway); when nothing
      matched, only serve it. `serve` is the routed handler's effect on the
      store; `elapsedNs` is the measured handling time. */
  function Middleware(s: Store, ledger: string, route: Option<string>, path: string, elapsedNs: nat, now: nat,
                      serve: Store -> Store): (r: Store)
    ensures route.None? ==> r == serve(s)
  {
    match route
    case None => serve(s)
    case Some(name) => RecordLatency(serve(CountRequest(s, name, now)), ledger, path, ElapsedMillis(elapsedNs), now)
  }

  /** `client.Get(k).Val()`: the live string stored under the name, or ""
      on any error: an unreachable store, a missing or expired key, or a
      key that holds the ledger. */
  function StoredText(s: Store, name: string, now: nat): (v: Bytes)
    ensures v == (if s.reachable && Cache.Cached(s.entries, name, now).Some?
                  then Cache.Cached(s.entries, name, now).value else [])
  {
    match Get(s, name, now)
    case Ok(b) => b
    case Err(_) => []
  }

  /** The hit count the stats report shows for one route name. */
  function Hits(s: Store, name: string, now: nat): (h: Bytes)
    ensures h != []
    ensures StoredText(s, name, now) != [] ==> h == StoredText(s, name, now)
    ensures StoredText(s, name, now) == [] ==> h == ZeroText
  {
    var v := StoredText(s, name, now);
    if v != [] then v else ZeroText
  }

  /** StatsHandler: every distinct non-empty registered name once, in the
      (unspecified) order of the map it was collected in, with its hit count. */
  method StatsHandler(s: Store, names: seq<string>, now: nat) returns (list: seq<Endpoint>)
    ensures forall i, j | 0 <= i < j < |list| :: list[i].name != list[j].name
    ensures forall i | 0 <= i < |list| :: list[i].name in names && list[i].name != ""
    ensures forall n | n in names && n != "" :: exists i | 0 <= i < |list| :: list[i].name == n
    ensures forall i | 0 <= i < |list| :: list[i].hits == Hits(s, list[i].name, now)
  {
    var em: map<string, Bytes> := map[];
    for n := 0 to |names|
      invariant forall k | k in em :: k in names && k != "" && em[k] == ZeroText
      invariant forall i | 0 <= i < n && names[i] != "" :: names[i] in em
    {
      if names[n] != "" {
        em := em[names[n] := ZeroText];
      }
    }
    list := ListEndpoints(s, em, now);
  }

  /** The names the gateway's stats report lists: every registered route
      name except the unnamed prefix route, each once. */
  const ReportedNames: set<string> := {
    "agency-list", "route-list", "route-config", "predictions-id", "predictions-tag",
    "predictions-multi", "schedule", "messages", "vehicle-locations", "not-in-service",
    "stats", "slow-queries"}

  /** Every reported name is registered. */
  lemma {:induction false} ReportedAreRegistered(n: string)
    requires n in ReportedNames
    ensures n in RegisteredNames
  {
    assert n in RegisteredNames[1..];
  }

  /** Every named registration is reported. */
  lemma {:induction false} RegisteredAreReported(i: int)
    requires 0 <= i < |RegisteredNames| && RegisteredNames[i] != ""
    ensures RegisteredNames[i] in ReportedNames
  {
  }

  /** The stats report of the gateway's own router: exactly the twelve
      distinct route names, each once, with its hit count. */
  method GatewayStats(s: Store, now: nat) returns (list: seq<Endpoint>)
    ensures forall i, j | 0 <= i < j < |list| :: list[i].name != list[j].name
    ensures forall i | 0 <= i < |list| :: list[i].name in ReportedNames
    ensures forall n | n in ReportedNames :: exists i | 0 <= i < |list| :: list[i].name == n
    ensures forall i | 0 <= i < |list| :: list[i].hits == Hits(s, list[i].name, now)
  {
    list := StatsHandler(s, RegisteredNames, now);
    forall i | 0 <= i < |list| ensures list[i].name in ReportedNames {
      var k :| 0 <= k < |RegisteredNames| && RegisteredNames[k] == list[i].name;
      RegisteredAreReported(k);
    }
    forall n | n in ReportedNames ensures exists i | 0 <= i < |list| :: list[i].name == n {
      ReportedAreRegistered(n);
    }
  }

  /** The second half of StatsHandler: read each route's counter into the
      map, then list the map's entries in whatever order it yields them. */
  method ListEndpoints(s: Store, em0: map<string, Bytes>, now: nat) returns (list: seq<Endpoint>)
    requires forall k | k in em0 :: em0[k] == ZeroText
    ensures forall i, j | 0 <= i < j < |list| :: list[i].name != list[j].name
    ensures forall i | 0 <= i < |list| :: list[i].name in em0
    ensures forall k | k in em0 :: exists i | 0 <= i < |list| :: list[i].name == k
    ensures forall i | 0 <= i < |list| :: list[i].hits == Hits(s, list[i].name, now)
  {
    var em := em0;
    var pending := em0.Keys;
    list := [];
    while pending != {}
      invariant em.Keys == em0.Keys
      invariant pending <= em0.Keys
      invariant forall k | k in pending :: em[k] == ZeroText
      invariant forall i | 0 <= i < |list| :: list[i].name in em0 && list[i].name !in pending
      invariant forall k | k in em0.Keys - pending :: exists i | 0 <= i < |list| :: list[i].name == k
      invariant forall i, j | 0 <= i < j < |list| :: list[i].name != list[j].name
      invariant forall i | 0 <= i < |list| :: list[i].hits == Hits(s, list[i].name, now)
      decreases pending
    {
      var k :| k in pending;
      var val := StoredText(s, k, now);
      if val != [] {
        em := em[k := val];
      }
      assert em[k] == Hits(s, k, now);
      AppendedNameListed(list, Endpoint(k, em[k]), em0.Keys - pending);
      list := list + [Endpoint(k, em[k])];
      assert em0.Keys - (pending - {k}) == (em0.Keys - pending) + {k};
      pending := pending - {k};
    }
    assert em0.Keys - pending == em0.Keys;
  }

  /** Appending an endpoint keeps every name already listed, and lists its own. */
  lemma {:induction false} AppendedNameListed(list: seq<Endpoint>, e: Endpoint, done: set<string>)
    requires forall x | x in done :: exists i | 0 <= i < |list| :: list[i].name == x
    ensures forall x | x in done + {e.name} :: exists i | 0 <= i < |list + [e]| :: (list + [e])[i].name == x
  {
    var grown := list + [e];
    assert grown[|list|].name == e.name;
    forall x | x in done
      ensures exists i | 0 <= i < |grown| :: grown[i].name == x
    {
      var i :| 0 <= i < |list| && list[i].name == x;
      assert grown[i] == list[i];
    }
  }

  /** The report shows the counter's own digits, or "0" for a route never
      counted: either way it reads back as the counter. */
  lemma HitsShowCount(s: Store, name: string, now: nat)
    requires s.reachable && Count(s, name, now).Some?
    ensures ParseCounter(Hits(s, name, now)) == Count(s, name, now)
  {
    if Lookup(s.entries, name, now).None? {
      assert ParseCounter(ZeroText) == Some(0) by {
        assert ZeroText[..0] == [];
      }
    }
  }

  /** The cache-or-fetch handler of a request keyed `req` leaves every other key alone. */
  lemma ReadThroughKeeps(req: string, upstream: Fetch<Bytes>, now: nat, writeAt: nat, key: string)
    requires key != req && now <= writeAt
    ensures Keeps(st => Cache.ReadThrough(st, req, upstream, now, writeAt).store, key)
  {
    forall st: Store
      ensures Cache.ReadThrough(st, req, upstream, now, writeAt).store.reachable == st.reachable
      ensures var e := Cache.ReadThrough(st, req, upstream, now, writeAt).store.entries;
              (key in e <==> key in st.entries) && (key in st.entries ==> e[key] == st.entries[key])
    {
    }
  }

  /** A matched request raises the route's reported hit count by one,
      whatever key the ledger is kept under. When the ledger key is the
      route's own name, the counter is a string, so the ledger write fails
      and leaves it alone. */
  lemma MiddlewareCountsHit(s: Store, ledger: string, name: string, path: string, elapsedNs: nat, now: nat,
                            serve: Store -> Store)
    requires s.reachable
    requires Count(s, name, now).Some? && Count(s, name, now).value < MaxInt64
    requires Keeps(serve, name)
    ensures var after := Middleware(s, ledger, Some(name), path, elapsedNs, now, serve);
            ParseCounter(Hits(after, name, now)) == Some(Count(s, name, now).value + 1)
  {
    var s1 := CountRequest(s, name, now);
    var s2 := serve(s1);
    var s3 := RecordLatency(s2, ledger, path, ElapsedMillis(elapsedNs), now);
    assert Lookup(s2.entries, name, now) == Lookup(s1.entries, name, now);
    if name == ledger {
      assert Ledger(s2, ledger, now).None?;
      assert s3 == s2;
    } else {
      assert name in s3.entries <==> name in s2.entries by {
        assert name in s3.entries - {ledger} <==> name in s2.entries - {ledger};
      }
      assert name in s2.entries ==> s3.entries[name] == s2.entries[name] by {
        if name in s2.entries {
          assert (s3.entries - {ledger})[name] == (s2.entries - {ledger})[name];
        }
      }
    }
    assert Count(s3, name, now) == Count(s2, name, now);
    HitsShowCount(s3, name, now);
  }

  /** A matched request records its whole-millisecond latency under its path.
      This holds for the route named like the ledger too, once the ledger
      exists: its INCR then fails on the sorted set and changes nothing. */
  lemma MiddlewareRecordsLatency(s: Store, ledger: string, name: string, path: string, elapsedNs: nat, now: nat,
                                 serve: Store -> Store)
    requires s.reachable && (name != ledger || Lookup(s.entries, ledger, now).Some?)
    requires Ledger(s, ledger, now).Some?
    requires Keeps(serve, ledger)
    ensures Ledger(Middleware(s, ledger, Some(name), path, elapsedNs, now, serve), ledger, now)
            == Some(Ledger(s, ledger, now).value[path := ElapsedMillis(elapsedNs)])
  {
    var s1 := CountRequest(s, name, now);
    if name == ledger {
      assert Count(s, name, now).None?;
      assert s1 == s;
    } else {
      assert ledger in s1.entries <==> ledger in s.entries by {
        assert ledger in s1.entries - {name} <==> ledger in s.entries - {name};
      }
      assert ledger in s.entries ==> s1.entries[ledger] == s.entries[ledger] by {
        if ledger in s.entries {
          assert (s1.entries - {name})[ledger] == (s.entries - {name})[ledger];
        }
      }
    }
    assert Ledger(s1, ledger, now) == Ledger(s, ledger, now);
    assert Ledger(serve(s1), ledger, now) == Ledger(s1, ledger, now);
  }

  /** The gateway's ledger key is the name of one of its routes: once the
      ledger exists, the "slow-queries" route's requests are never counted
      and the report shows "0" for it. */
  lemma LedgerHidesItsRouteCount(s: Store, path: string, elapsedNs: nat, now: nat, serve: Store -> Store)
    requires s.reachable
    requires Lookup(s.entries, LedgerKey, now).Some? && Lookup(s.entries, LedgerKey, now).value.SortedSet?
    requires Keeps(serve, LedgerKey)
    ensures LedgerKey in RegisteredNames
    ensures Hits(s, LedgerKey, now) == ZeroText
    ensures Hits(Middleware(s, LedgerKey, Some(LedgerKey), path, elapsedNs, now, serve), LedgerKey, now) == ZeroText
  {
    var s2 := serve(CountRequest(s, LedgerKey, now));
    assert Lookup(s2.entries, LedgerKey, now) == Lookup(s.entries, LedgerKey, now);
    assert RegisteredNames[14] == LedgerKey;
  }

  /** Conversely, when the first request that ever creates the key is one to
      "slow-queries", the key becomes a counter and no latency is recorded. */
  lemma RouteCountHidesLedger(s: Store, path: string, elapsedNs: nat, now: nat, serve: Store -> Store)
    requires s.reachable
    requires Lookup(s.entries, LedgerKey, now).None?
    requires Keeps(serve, LedgerKey)
    ensures Ledger(Middleware(s, LedgerKey, Some(LedgerKey), path, elapsedNs, now, serve), LedgerKey, now).None?
  {
    var s1 := CountRequest(s, LedgerKey, now);
    assert Lookup(s1.entries, LedgerKey, now) == Some(Str(Digits(1)));
    assert Lookup(serve(s1).entries, LedgerKey, now) == Lookup(s1.entries, LedgerKey, now);
  }
}

=== FILE: time_of_day.dfy ===
/** The part of Go's `time.Parse` the not-in-service evaluator relies on:
    the two layouts "15:05" (query time) and "15:05:00" (stop times).
    In Go's reference layout "15" is the hour and "05" is the SECOND field,
    so "08:30" reads as 8 hours and 30 seconds. Both layouts read that field
    the same way, so the order of "hh:mm" values is kept.
    A failed parse yields Go's zero `time.Time` (1 January of year 1), which
    lies after every successfully parsed time of day (1 January of year 0). */
module TimeOfDay {
  import opened Wrappers

  const SecondsPerHour: nat := 3600
  const SecondsPerDay: nat := 24 * SecondsPerHour

  /** A parsed time: a clock reading on the layout's default date, or the zero time. */
  datatype Instant = Clock(seconds: nat) | Zero

  /** Go's `a.Before(b)` on the two kinds of instant. */
  predicate Before(a: Instant, b: Instant) {
    match (a, b)
    case (Clock(x), Clock(y)) => x < y
    case (Clock(_), Zero) => true
    case (Zero, _) => false
  }

  /** Go's `a.After(b)`. */
  predicate After(a: Instant, b: Instant) {
    Before(b, a)
  }

  predicate IsDigit(c: char) {
    '0' <= c <= '9'
  }

  function DigitValue(c: char): (d: nat)
    requires IsDigit(c)
    ensures d < 10
  {
    (c as int - '0' as int) as nat
  }

  /** The "15" field: one digit, or two when a second digit follows. */
  function ParseHour(s: string): Option<(nat, string)> {
    if |s| == 0 || !IsDigit(s[0]) then None
    else if |s| == 1 || !IsDigit(s[1]) then Some((DigitValue(s[0]), s[1..]))
    else Some((10 * DigitValue(s[0]) + DigitValue(s[1]), s[2..]))
  }

  /** The "05" field: exactly two digits. */
  function ParseZeroSecond(s: string): Option<(nat, string)> {
    if |s| < 2 || !IsDigit(s[0]) || !IsDigit(s[1]) then None
    else Some((10 * DigitValue(s[0]) + DigitValue(s[1]), s[2..]))
  }

  /** Parses hour ':' second, then requires the rest of the input to be
      exactly `suffix` (the layout's trailing literal). */
  function ParseClock(s: string, suffix: string): (r: Instant)
    ensures r.Clock? ==> r.seconds < SecondsPerDay && r.seconds % SecondsPerHour < 60
  {
    match ParseHour(s)
    case None => Zero
    case Some((hour, rest)) =>
      if 24 <= hour || |rest| == 0 || rest[0] != ':' then Zero
      else
        match ParseZeroSecond(rest[1..])
        case None => Zero
        case Some((sec, rest')) =>
          if 60 <= sec || rest' != suffix then Zero
          else Clock(hour * SecondsPerHour + sec)
  }

  /** `time.Parse("15:05", s)` with the error discarded. Which texts it
      accepts is stated by ParsedSpelling and SpellingParses. */
  function ParseShort(s: string): (r: Instant)
    ensures r.Clock? ==> r.seconds < SecondsPerDay && r.seconds % SecondsPerHour < 60
    ensures r.Clock? ==> |s| == 4 || |s| == 5
  {
    ParseClock(s, "")
  }

  /** `time.Parse("15:05:00", s)` with the error discarded. */
  function ParseLong(s: string): (r: Instant)
    ensures r.Clock? ==> r.seconds < SecondsPerDay && r.seconds % SecondsPerHour < 60
    ensures r.Clock? ==> |s| == 7 || |s| == 8
  {
    ParseClock(s, ":00")
  }

  function DigitChar(d: nat): (c: char)
    requires d < 10
    ensures IsDigit(c) && DigitValue(c) == d
  {
    ('0' as int + d) as char
  }

  /** `s` is the text of the reading `seconds` in a layout ending in
      `suffix`: the hour in one digit (below ten) or two, ':', the "05"
      field in two digits, then the suffix. */
  predicate Spells(s: string, seconds: nat, suffix: string) {
    && seconds < SecondsPerDay && seconds % SecondsPerHour < 60
    && var field := TwoDigits(seconds % SecondsPerHour);
       var hour := seconds / SecondsPerHour;
       || s == TwoDigits(hour) + ":" + field + suffix
       || (hour < 10 && s == [DigitChar(hour)] + ":" + field + suffix)
  }

  /** Two-digit rendering of a number below 100. */
  function TwoDigits(n: nat): (r: string)
    requires n < 100
    ensures |r| == 2 && IsDigit(r[0]) && IsDigit(r[1])
    ensures 10 * DigitValue(r[0]) + DigitValue(r[1]) == n
  {
    [('0' as int + n / 10) as char, ('0' as int + n % 10) as char]
  }

  /** The "hh:mm" text of a clock reading, as the query route accepts it. */
  function Format(seconds: nat): (r: string)
    requires seconds < SecondsPerDay && seconds % SecondsPerHour < 60
    ensures |r| == 5
  {
    TwoDigits(seconds / SecondsPerHour) + ":" + TwoDigits(seconds % SecondsPerHour)
  }

  /** The zero time is after every parsed clock reading, and `Before` is a
      strict total order on instants. */
  lemma ZeroIsLatest(a: Instant)
    ensures a.Clock? <==> Before(a, Zero)
    ensures !Before(Zero, a)
  {
  }

  lemma BeforeIsStrictTotalOrder(a: Instant, b: Instant, c: Instant)
    ensures !Before(a, a)
    ensures Before(a, b) && Before(b, c) ==> Before(a, c)
    ensures a != b ==> Before(a, b) || Before(b, a)
  {
  }

  /** Appending text that starts with a non-digit extends what follows the hour field. */
  lemma {:induction false} ParseHourExtends(s: string, x: string)
    requires |x| > 0 && !IsDigit(x[0])
    ensures ParseHour(s + x) == match ParseHour(s)
                                case None => None
                                case Some((h, rest)) => Some((h, rest + x))
  {
    var l := s + x;
    if |s| == 0 {
      assert l[0] == x[0];
    } else if |s| == 1 || !IsDigit(s[1]) {
      assert l[0] == s[0] && l[1] == (if |s| == 1 then x[0] else s[1]);
      assert l[1..] == s[1..] + x;
    } else {
      assert l[0] == s[0] && l[1] == s[1];
      assert l[2..] == s[2..] + x;
    }
  }

  /** Appending text that starts with a non-digit extends what follows the second field. */
  lemma {:induction false} ParseZeroSecondExtends(s: string, x: string)
    requires |x| > 0 && !IsDigit(x[0])
    ensures ParseZeroSecond(s + x) == match ParseZeroSecond(s)
                                      case None => None
                                      case Some((v, rest)) => Some((v, rest + x))
  {
    var l := s + x;
    if |s| == 0 {
      assert l[0] == x[0];
    } else if |s| == 1 {
      assert l[1] == x[0];
    } else {
      assert l[0] == s[0] && l[1] == s[1];
      assert l[2..] == s[2..] + x;
    }
  }

  /** Every printable reading survives printing and parsing with both layouts. */
  lemma {:induction false} ParseFormat(seconds: nat)
    requires seconds < SecondsPerDay && seconds % SecondsPerHour < 60
    ensures ParseShort(Format(seconds)) == Clock(seconds)
    ensures ParseLong(Format(seconds) + ":00") == Clock(seconds)
  {
    var h := TwoDigits(seconds / SecondsPerHour);
    var m := TwoDigits(seconds % SecondsPerHour);
    var s := Format(seconds);
    assert s == h + (":" + m);
    assert s[0] == h[0] && s[1] == h[1] && s[2..] == ":" + m;
    assert ParseHour(s) == Some((seconds / SecondsPerHour, ":" + m));
    assert (":" + m)[1..] == m;
    assert m[2..] == "";
    assert ParseZeroSecond(m) == Some((seconds % SecondsPerHour, ""));
    assert ParseShort(s) == Clock(seconds);
    LayoutsAgree(s);
  }

  /** The query layout and the stop-time layout read the same text to the
      same instant: appending the literal ":00" changes nothing. */
  lemma {:induction false} LayoutsAgree(s: string)
    ensures ParseLong(s + ":00") == ParseShort(s)
  {
    var x := ":00";
    ParseHourExtends(s, x);
    if ParseHour(s).Some? {
      var (hour, rest) := ParseHour(s).value;
      if |rest| == 0 {
        assert (rest + x)[1..] == "00";
      } else if 24 <= hour || rest[0] != ':' {
      } else {
        var r1 := rest[1..];
        assert (rest + x)[1..] == r1 + x;
        ParseZeroSecondExtends(r1, x);
        if ParseZeroSecond(r1).Some? {
          var (sec, rest') := ParseZeroSecond(r1).value;
          assert rest' + x == x <==> rest' == "" by {
            if rest' + x == x {
              assert |rest'| == 0;
            }
          }
        }
      }
    }
  }

  /** A digit read as its value and written again is the same digit. */
  lemma DigitRoundTrip(c: char)
    requires IsDigit(c)
    ensures DigitChar(DigitValue(c)) == c
  {
  }

  /** Reading the two digits of a field and printing it again gives the same text. */
  lemma {:induction false} FieldRoundTrip(t: string)
    requires |t| >= 2 && IsDigit(t[0]) && IsDigit(t[1])
    ensures TwoDigits(10 * DigitValue(t[0]) + DigitValue(t[1])) == t[..2]
  {
    var n := 10 * DigitValue(t[0]) + DigitValue(t[1]);
    assert n / 10 == DigitValue(t[0]) && n % 10 == DigitValue(t[1]);
    DigitRoundTrip(t[0]);
    DigitRoundTrip(t[1]);
  }

  /** Every text either layout accepts spells the reading it yields. */
  lemma {:induction false} ParsedSpelling(s: string, suffix: string)
    requires ParseClock(s, suffix).Clock?
    ensures Spells(s, ParseClock(s, suffix).seconds, suffix)
  {
    var (hour, rest) := ParseHour(s).value;
    var t := rest[1..];
    var (sec, rest') := ParseZeroSecond(t).value;
    var x := hour * SecondsPerHour + sec;
    assert x / SecondsPerHour == hour && x % SecondsPerHour == sec;
    FieldRoundTrip(t);
    assert t == t[..2] + t[2..];
    assert rest == ":" + TwoDigits(sec) + suffix;
    if |s| == 1 || !IsDigit(s[1]) {
      DigitRoundTrip(s[0]);
      assert s == [s[0]] + s[1..];
    } else {
      FieldRoundTrip(s);
      assert s == s[..2] + s[2..];
    }
  }

  /** Conversely, every spelling of a reading parses to it. */
  lemma {:induction false} SpellingParses(s: string, seconds: nat, suffix: string)
    requires Spells(s, seconds, suffix)
    ensures ParseClock(s, suffix) == Clock(seconds)
  {
    var field := TwoDigits(seconds % SecondsPerHour);
    var hour := seconds / SecondsPerHour;
    var rest := ":" + field + suffix;
    assert rest[1..] == field + suffix;
    assert ParseZeroSecond(rest[1..]) == Some((seconds % SecondsPerHour, suffix));
    if s == TwoDigits(hour) + rest {
      assert ParseHour(s) == Some((hour, rest));
    } else {
      assert s == [DigitChar(hour)] + rest;
      assert ParseHour(s) == Some((hour, rest));
    }
  }
}

=== FILE: wrappers.dfy ===
/** Small failure-carrying datatypes shared by the gateway model. */
module Wrappers {

  /** A value that may be absent. */
  datatype Option<+T> = None | Some(value: T)

  /** The outcome of one call to the upstream transit-data provider: the
      bytes (or already decoded document) it answered with, or a transport
      failure. The network call itself is not modelled; callers receive its
      outcome as an input. */
  datatype Fetch<+T> = Fetched(value: T) | FetchFailed
}
